=== FILE: README.md ===
# SSASQueryProxy request pipeline in Dafny

SSASQueryProxy is an HTTP proxy in front of SQL Server Analysis Services (SSAS).
A caller POSTs an MDX query together with basic-authentication credentials. The
proxy checks the request, builds an ADOMD.NET connection string that carries
the caller's own credentials, runs the query and returns the table.

This project models the part of the service that decides what happens to a
POST request to `QueryController.Post`:

- **Allow-list.** The `allowedSsasServers` setting is split on `;` with empty
  entries removed. Each piece is trimmed and upper-cased, and the results form a
  set (`AllowList`, built on `Splitting` and `Chars`).
- **Pipeline.** No action takes a request without `server` or `db`. The
  authentication filter accepts any user-name/password pair and stores it
  unchanged, in place of whatever principal the host attached. Without a pair
  the host's principal stays. `[Authorize]` then refuses a request whose
  principal is not authenticated: no pair and no authenticated host
  principal, or a pair with an empty user name (`Authentication`,
  `Proxy.Handle`). A host principal that passes `[Authorize]` is not the
  filter's identity, so the action answers it with its own 401.
- **Trace line.** The action first logs the start of the query, and as written
  that throws for a query shorter than 512 characters.
- **Validation chain.** The chain runs in a fixed order and short-circuits:
  - 401 when there is no identity;
  - then a 400 for, in turn, the server (not in the allow-list), `db`,
    `applicationName`, the user name and the password, each checked against its
    own character class (`Patterns`, `Validation`);
  - a null `server`, `db` or `applicationName` makes its check throw, and the
    request ends in a 500.
- **Connection string.** Accepted values are interpolated into the fixed
  connection-string layout (`ConnectionString`, `Numbers`). The string is then
  read back with an independent key/value reader. This proves that no accepted
  value can leave its slot.
- **Outcome.** The action either responds with a status and message or runs
  the body as a command with the caller's timeout (`Proxy`).

The model is pure: every operation is a function over immutable datatypes.
The one method is `Patterns.IsMatch`, a loop that models the scan of the
regular expression as written.

The action and the pipeline take a `Patterns.Reading`. `AsWritten` is the
code as it stands: the trace line's `Substring(0, 512)`, and the patterns'
`$`, which also matches before a final line feed. `Intended` is the
corrected code: a trace prefix of at most 512 characters, and whole-string
pattern checks. The two differences are the findings below.

Two facts about the code shape the model:

- The query text is only ever the request body. The action has no `query`
  parameter.
- An empty setting gives an empty allow-list, and start-up does not refuse it.
  Only a missing setting fails: the static initialiser throws, and every
  request that reaches the server check fails (`Proxy.Serve`).

## Model

| member | source | states |
|---|---|---|
| Chars.ToUpper | SSASQueryProxy/Controllers/QueryController.cs:46 | upper-casing keeps the length, leaves no lower-case letter and changes each character only by its case |
| Chars.ToUpperEqualIffEqualIgnoringCase | SSASQueryProxy/Controllers/QueryController.cs:46 | two names upper-case to the same string exactly when they are equal ignoring case |
| Chars.ToUpperIdempotent | SSASQueryProxy/Controllers/QueryController.cs:20 | upper-casing an upper-cased name changes nothing, so normalised allow-list entries are fixed points |
| Chars.ToUpperKeepsNonLetters | SSASQueryProxy/Controllers/QueryController.cs:46 | a character that is not a letter occurs in a name exactly when it occurs in its upper-cased form |
| Chars.Trim | SSASQueryProxy/Controllers/QueryController.cs:20 | the trimmed piece is the infix of the piece left between a leading and a trailing run of white space, and has no white space at either end; it is unchanged if already trimmed, and empty exactly when the piece is all white space |
| Chars.UpperedEdgesStayNonWhite | SSASQueryProxy/Controllers/QueryController.cs:20 | upper-casing neither creates nor removes white space at the ends of a name |
| Splitting.Split | SSASQueryProxy/Controllers/QueryController.cs:20 | splitting on `;` yields at least one piece, no piece holds `;`, and joining the pieces with `;` gives back the setting |
| Splitting.SplitJoin | SSASQueryProxy/Controllers/QueryController.cs:20 | splitting a join of `;`-free pieces gives back exactly those pieces |
| Splitting.RemoveEmptyEntries | SSASQueryProxy/Controllers/QueryController.cs:20 | exactly the non-empty pieces survive |
| AllowList.Pieces | SSASQueryProxy/Controllers/QueryController.cs:20 | the surviving pieces are exactly the non-empty pieces of the split on `;`, so none holds `;` |
| AllowList.FromSetting | SSASQueryProxy/Controllers/QueryController.cs:20 | a name is in the set exactly when it is the trimmed, upper-cased form of a non-empty piece of the setting |
| AllowList.MembersAreNormalized | SSASQueryProxy/Controllers/QueryController.cs:20 | every member is its own normal form: no edge white space, no lower-case letter, no `;` |
| AllowList.BlankPieceAdmitsEmpty | SSASQueryProxy/Controllers/QueryController.cs:20 | a piece of only white space survives the split and puts the empty string in the set |
| AllowList.AllowsIffSomePieceNormalizesToIt | SSASQueryProxy/Controllers/QueryController.cs:20 | a server passes exactly when its upper-cased name is the normal form of some non-empty piece of the setting |
| AllowList.AllowsIgnoresCase | SSASQueryProxy/Controllers/QueryController.cs:46-49 | two server names equal ignoring case are both allowed or both refused |
| AllowList.AllowedServerHasNoEdgeSpace | SSASQueryProxy/Controllers/QueryController.cs:46 | an allowed server name has no white space at either end |
| AllowList.SemicolonNeverAllowed | SSASQueryProxy/Controllers/QueryController.cs:46-49 | no server name holding `;` is allowed, whatever the setting, since every entry comes from a `;`-free piece |
| AllowList.AllowedServerSharesNonLetters | SSASQueryProxy/Controllers/QueryController.cs:46 | an allowed server holds a non-letter exactly when its allow-list entry does |
| Patterns.IsMatch | SSASQueryProxy/Controllers/QueryController.cs:52 | the regular-expression scan accepts exactly the strings that are one or more class characters, optionally followed by one final line feed |
| Patterns.ScanStopsAt | SSASQueryProxy/Controllers/QueryController.cs:52 | where the longest run of class characters stops decides whether the anchored pattern matches |
| Patterns.DbNameCharacters | SSASQueryProxy/Controllers/QueryController.cs:52-55 | under the whole-string test, `db` passes exactly when it is non-empty and every character is an ASCII letter, a digit, `_` or `-` |
| Patterns.UserNameIsPasswordWithoutAtAndColon | SSASQueryProxy/Controllers/QueryController.cs:62 | the user-name class is the password class without `@` and `:` |
| Patterns.PasswordSameAsAppName | SSASQueryProxy/Controllers/QueryController.cs:67 | the password class and the applicationName class are the same |
| Patterns.DbNameIsNarrowest | SSASQueryProxy/Controllers/QueryController.cs:52 | every character allowed in `db` is allowed in every other field |
| Patterns.AtSignOnlyOutsideUserName | SSASQueryProxy/Controllers/QueryController.cs:62 | `a@b` is refused as a user name but accepted as a password and as an application name |
| Patterns.AcceptedIsSlotSafe | SSASQueryProxy/Controllers/QueryController.cs:52-70 | a value the regular expression accepts holds no `'`, `;` or `"` |
| Patterns.MatchedHasNoWhiteSpace | SSASQueryProxy/Controllers/QueryController.cs:52-70 | a value that matches its class as a whole string holds no white space and no `=` |
| Patterns.AsWrittenAddsTrailingLineFeed | SSASQueryProxy/Controllers/QueryController.cs:52 | the anchored pattern accepts a string exactly when it is a class match, or a class match followed by one line feed |
| Patterns.TrailingLineFeedAccepted | SSASQueryProxy/Controllers/QueryController.cs:52 | `"Sales\n"` passes the `db` check although it ends in white space |
| Patterns.AcceptedShape | SSASQueryProxy/Controllers/QueryController.cs:52-70 | under either reading, an accepted value is non-empty and holds no `'`, `;` or `"`; its only possible white space is a final line feed, and only the pattern as written lets that through |
| Patterns.DefaultAppNameMatches | SSASQueryProxy/Controllers/QueryController.cs:32 | the default application name passes its own check |
| Numbers.DecimalString | SSASQueryProxy/Controllers/QueryController.cs:78 | the formatted integer is non-empty, made of digits after an optional leading `-`, and has no leading zero except for `0` itself |
| Numbers.DecimalRoundTrip | SSASQueryProxy/Controllers/QueryController.cs:78-79 | reading a formatted integer back gives the same integer |
| ConnectionString.BuildRendersDescriptor | SSASQueryProxy/Controllers/QueryController.cs:77-80 | the interpolated string is the rendering of the twelve entries, in order, with the five strings quoted and the numbers bare |
| ConnectionString.DescriptorWellFormed | SSASQueryProxy/Controllers/QueryController.cs:77-80 | once the five strings hold no `'`, `;` or `"`, every entry is well formed |
| ConnectionString.BuildParsesBack | SSASQueryProxy/Controllers/QueryController.cs:77-80 | for values free of `'`, `;` and `"`, reading the connection string back gives exactly the twelve intended entries |
| ConnectionString.SlotsCarryTheirValues | SSASQueryProxy/Controllers/QueryController.cs:77-80 | read back, each value sits in its own slot, both timeouts read as the caller's timeout, and the locale as the caller's locale |
| Validation.Validate | SSASQueryProxy/Controllers/QueryController.cs:40-70 | no identity always gives 401, whatever the fields; with an identity the verdict is never 401; an accepted request has a non-null server, db and application name and carries its values unchanged |
| Validation.ValidateFindsFirstFailure | SSASQueryProxy/Controllers/QueryController.cs:45-70 | with an identity and under either reading, the request is accepted exactly when all five checks pass; it is refused for a field exactly when that field is the first, in the order server, db, applicationName, user name, password, whose check fails (400) or meets a null (thrown exception) |
| Validation.LaterFieldsNotConsulted | SSASQueryProxy/Controllers/QueryController.cs:45-70 | once a field's check refuses the request, changing the fields after it does not change the verdict |
| Validation.ServerCheckIgnoresCase | SSASQueryProxy/Controllers/QueryController.cs:46-49 | `prod1` and `PROD1` get the same verdict |
| Validation.AcceptedValuesAreSlotSafe | SSASQueryProxy/Controllers/QueryController.cs:52-70 | under either reading, every accepted value holds no `'`, `;` or `"` (for the server, as long as no allow-list entry does); the four pattern-checked values hold no white space, except that as written one final line feed can remain |
| Validation.AllowedServerIsSlotSafe | SSASQueryProxy/Controllers/QueryController.cs:46 | an allowed server holds no `'`, `;` or `"` when no allow-list entry does |
| Proxy.TracePrefix | SSASQueryProxy/Controllers/QueryController.cs:37 | the logged query is a prefix of the query, of length at most 512 |
| Proxy.TraceQuery | SSASQueryProxy/Controllers/QueryController.cs:37 | as written, taking the logged query throws exactly for a query shorter than 512 characters; whenever it does not throw, it logs the same prefix as `TracePrefix` |
| Proxy.Post | SSASQueryProxy/Controllers/QueryController.cs:37-92 | a throwing trace line ends the action in a 500 before any check; otherwise a command runs exactly when validation accepts, with the body as its text, the caller's timeout and the connection string of the accepted values; 401 exactly without an identity; a 400 exactly for a failing field, with that field's message; 500 exactly for a null value |
| Proxy.OutcomeFollowsChecks | SSASQueryProxy/Controllers/QueryController.cs:37-80 | with an identity, a command runs exactly when the trace line does not throw and all five checks pass; the first failing check gives its own 400; a 500 comes exactly when the trace line throws or the first check that does not pass meets a null |
| Validation.Bind | SSASQueryProxy/Controllers/QueryController.cs:32 | the action is selected exactly when `server` and `db` are present; each string argument is its text, or null exactly when that text is empty or all white space; an absent `applicationName` is `SSASQueryProxy`; an absent integer is its default (1029, 120) and a present one is its value; its meaning in the pipeline is stated by `Proxy.Handle`, `DefaultsApply` and `EmptyApplicationNameFaults` |
| Proxy.Handle | SSASQueryProxy/Controllers/QueryController.cs:29-43 | no action takes a request lacking `server` or `db`; for one with both, `[Authorize]` refuses it exactly when it carries a basic-authentication pair with an empty user name, or no pair and no authenticated host principal; an authenticated host principal without a pair gets the action's own 401 (or the trace line's 500), and that 401 answers nothing else; a command runs only for an authorized pair, and then the outcome is the action's for that pair's identity |
| Proxy.ServerRefusal | SSASQueryProxy/Controllers/QueryController.cs:46-49 | with an identity and a non-throwing trace line, the server 400 answers exactly when the server is non-null and not allowed |
| Proxy.ServeRefusesUnlistedServer | SSASQueryProxy/Controllers/QueryController.cs:20-49 | for a request carrying a pair with a non-empty user name, whatever the host attached, and a non-blank server and a db, with a non-throwing trace line (as written, a body of at least 512 characters), the server 400 answers exactly when no non-empty piece of the setting, trimmed and upper-cased, equals the upper-cased server name |
| Proxy.ConnectionStringReadsBack | SSASQueryProxy/Controllers/QueryController.cs:77-92 | under either reading and when no allow-list entry holds `'`, `;` or `"`, the connection string of a run command reads back as exactly the validated values; `Connect Timeout` and `Timeout` both equal the command timeout, and the locale identifier is passed through unchanged |
| Proxy.DefaultsApply | SSASQueryProxy/Controllers/QueryController.cs:32 | absent optional parameters give locale 1029, application name `SSASQueryProxy` and timeout 120, and the default name is neither null nor refused |
| Proxy.EmptyApplicationNameFaults | SSASQueryProxy/Controllers/QueryController.cs:57 | an explicitly empty application name binds to null, so once server and db pass the action ends in a 500, not a 400 |
| Proxy.SemicolonServerRefused | SSASQueryProxy/Controllers/QueryController.cs:46-49 | a server name holding `;` (such as `evil;DROP`) gets the server 400, whatever the configured allow-list, with a non-throwing trace line (as written, a body of at least 512 characters) |
| Proxy.QuotedAppNameRefused | SSASQueryProxy/Controllers/QueryController.cs:57-60 | under either reading and with a non-throwing trace line (as written, a body of at least 512 characters), an application name holding `"` gets the applicationName 400 once server and db have passed |
| Proxy.ShortQueryFaults | SSASQueryProxy/Controllers/QueryController.cs:37 | an authorized, valid request with the body `SELECT 1 ON 0 FROM [Cube]` ends in a 500 as written, and runs once the trace line cannot throw |
| Proxy.LineFeedReachesCatalogAsWritten | SSASQueryProxy/Controllers/QueryController.cs:52 | as written, with a long enough body, `db = "Sales\n"` passes and is the database name the connection string is built from |
| Proxy.LineFeedRefusedAsIntended | SSASQueryProxy/Controllers/QueryController.cs:52-55 | under the whole-string test the same request gets the db 400 |

## Left out

- Opening the ADOMD connection, running the command, loading the `DataSet` and
  marshalling the table (QueryController.cs:82-107). These are foreign library
  calls. `Proxy.Execute` records the connection string, the command text and
  the command timeout that would be used.
- Reading the request body (QueryController.cs:35) is asynchronous I/O. The
  body is a parameter.
- Tracing, the correlation id and the stopwatch (QueryController.cs:37,
  72-73, 103-104, and CustomExceptionFilterAttribute.cs) only log. The one
  exception is the throw on line 37, which is modelled. An exception that
  escapes the action is modelled as `Fault` (the framework's 500).
- Proxy.TraceQuery: `Substring` counts UTF-16 code units, while the model's
  `|body|` counts Unicode scalar values. A body of fewer than 512 characters
  that needs 512 or more code units (because of characters outside the Basic
  Multilingual Plane) faults in the model but not in the source.
- The `Get` help text (QueryController.cs:23-27) is a constant.
- Route registration (WebApiConfig.cs) and the challenge-header extension
  (HttpAuthenticationChallengeContextExtensions.cs) are framework wiring.
- The basic-authentication base class, which parses the `Authorization`
  header, is not part of this model. `Authentication.Authenticate` takes the
  parsed pair.
- Authentication.IsAuthenticated: `[Authorize]` (QueryController.cs:30)
  admits only an authenticated principal. The stored identity is a
  `GenericIdentity` (SaveCredsBasicAuthenticationIdentity.cs:9-13), and the
  model assumes the .NET rule that such an identity is authenticated exactly
  when its name is not empty. The framework's 401 is `Proxy.Denied`. Its
  message is not modelled.
- Authentication.Authenticate: a principal the host attaches (through IIS
  Windows authentication, say) is modelled only by whether it is
  authenticated. The model assumes the filter leaves it in place when the
  request has no basic-authentication pair, and that no other authentication
  filter runs.
- Validation.Bind: parameter binding follows ASP.NET Web API 2 conventions,
  which are assumptions about the framework:
  - a request without `server` or `db` selects no action (`Proxy.NotSelected`);
  - an empty or all-white-space string value binds to null;
  - an integer that is absent takes its default, and a present one is the
    `Int32` its text converts to.
  The model does not cover the framework's other outcomes: a blank integer
  value, an integer value that does not convert, or any other model state
  error.
- Proxy.Serve: when the setting is missing, the model faults every request
  before action selection and authorization. When exactly the runtime runs
  the static initialiser is not modelled.
- Culture-sensitive upper-casing is not modelled. `Chars.ToUpper` changes
  ASCII letters only.
- The regular-expression engine is modelled only as far as these patterns
  need: one character class, repeated, after `^`. The end is either .NET's
  `$` (`Patterns.MatchesAsWritten`, which also matches before a final line
  feed) or the end of input (`Patterns.Matches`).
- The reference connection-string reader (`ConnectionString.Parse`) is a
  simplified form of the OLE DB grammar. It handles single-quoted and bare
  values only, with no doubled-quote escapes, no double-quoted values and no
  trimming around keys. It is the independent partner of the interpolated
  string, not a model of the driver's parser.
- Numbers.DecimalString: models the invariant-culture formatting of a 32-bit
  integer. A culture with a different negative sign is not modelled.
- Validation.AcceptedValuesAreSlotSafe: for the server, only quote and
  semicolon safety is promised, and only when the allow-list entries are
  themselves safe. The server is checked against configuration, not against a
  character class.

## Findings

| source | as written | input that shows it | evidently intended | confidence | as-written member | corrected member |
|---|---|---|---|---|---|---|
| SSASQueryProxy/Controllers/QueryController.cs:52 | `Regex.IsMatch(db, @"^[a-zA-Z0-9_-]+$")`; in .NET, `$` also matches just before a final line feed. The patterns on lines 57, 62 and 67 behave the same way | `db = "Sales\n"` passes, so a value ending in white space reaches the connection string | the whole string is made of class characters (`\z` rather than `$`) | not executed; medium | Patterns.IsMatch, Patterns.TrailingLineFeedAccepted, Proxy.LineFeedReachesCatalogAsWritten | Patterns.Matches, Patterns.MatchedHasNoWhiteSpace, Proxy.LineFeedRefusedAsIntended |
| SSASQueryProxy/Controllers/QueryController.cs:37 | the trace line takes `query?.Substring(0, 512)` before any check | an authorized, valid request with the body `SELECT 1 ON 0 FROM [Cube]` (25 characters) throws and gets a 500 | log at most the first 512 characters of the query | not executed; high | Proxy.TraceQuery, Proxy.ShortQueryFaults | Proxy.TracePrefix, Proxy.OutcomeFollowsChecks |

=== FILE: allow_list.dfy ===
/**
 * The allow-list of backend servers: read once from the semicolon-separated
 * `allowedSsasServers` application setting, each non-empty piece trimmed and
 * upper-cased; a server is allowed when its upper-cased name is a member.
 */
module AllowList {
  import opened Optional
  import opened Chars
  import opened Splitting

  type AllowList = set<string>

  /** The normal form of one configured piece. */
  function Normalize(piece: string): string
  {
    ToUpper(Trim(piece))
  }

  /** The pieces the setting is cut into, empty ones removed. */
  function Pieces(setting: string): (pieces: seq<string>)
    ensures forall p :: p in pieces <==> p in Split(setting, ';') && p != []
    ensures forall p :: p in pieces ==> ';' !in p
  {
    RemoveEmptyEntries(Split(setting, ';'))
  }

  /** The set built from a present setting. */
  function FromSetting(setting: string): (allowed: AllowList)
    ensures forall e :: e in allowed <==>
      exists p :: p in Split(setting, ';') && p != [] && e == Normalize(p)
  {
    set p | p in Pieces(setting) :: Normalize(p)
  }

  /**
   * The static initializer: a missing setting makes it throw, which leaves
   * the controller without an allow-list (every request fails).
   */
  function Load(setting: Option<string>): (allowed: Option<AllowList>)
    ensures allowed.Some? <==> setting.Some?
    ensures setting.Some? ==> forall e :: e in allowed.value <==> e in FromSetting(setting.value)
  {
    match setting
    case None => None
    case Some(s) => Some(FromSetting(s))
  }

  /** The server check of the controller: membership of the upper-cased name. */
  predicate Allows(allowed: AllowList, server: string)
  {
    ToUpper(server) in allowed
  }

  /** Every member is in normal form: trimmed, no lower-case letter, no separator. */
  lemma {:induction false} MembersAreNormalized(setting: string, e: string)
    requires e in FromSetting(setting)
    ensures Normalize(e) == e
    ensures HasNoEdgeSpace(e)
    ensures forall i :: 0 <= i < |e| ==> !IsLower(e[i])
    ensures ';' !in e
  {
    var p :| p in Split(setting, ';') && p != [] && e == Normalize(p);
    NormalizedPieceIsNormal(p);
  }

  lemma NormalizedPieceIsNormal(p: string)
    requires ';' !in p
    ensures var e := Normalize(p);
      && Normalize(e) == e && HasNoEdgeSpace(e) && ';' !in e
      && forall i :: 0 <= i < |e| ==> !IsLower(e[i])
  {
    var t := Trim(p);
    var e := ToUpper(t);
    assert ';' !in t;
    ToUpperKeepsNonLetters(t, ';');
    UpperedEdgesStayNonWhite(t);
    ToUpperIdempotent(t);
    assert Trim(e) == e;
  }

  /** No server name holding ';' is ever allowed, whatever the setting. */
  lemma {:induction false} SemicolonNeverAllowed(setting: string, server: string)
    requires ';' in server
    ensures !Allows(FromSetting(setting), server)
  {
    ToUpperKeepsNonLetters(server, ';');
    if ToUpper(server) in FromSetting(setting) {
      MembersAreNormalized(setting, ToUpper(server));
    }
  }

  /** A piece made only of white space survives and becomes the empty string. */
  lemma {:induction false} BlankPieceAdmitsEmpty(setting: string, p: string)
    requires p in Split(setting, ';') && p != [] && IsAllWhiteSpace(p)
    ensures [] in FromSetting(setting)
  {
    assert Normalize(p) == [];
  }

  /** The server check, stated against the setting itself. */
  lemma {:induction false} AllowsIffSomePieceNormalizesToIt(setting: string, server: string)
    ensures Allows(FromSetting(setting), server) <==>
      exists p :: p in Split(setting, ';') && p != [] && Normalize(p) == ToUpper(server)
  {
  }

  /** Membership is case-insensitive: servers equal up to case get the same verdict. */
  lemma {:induction false} AllowsIgnoresCase(allowed: AllowList, s: string, t: string)
    requires EqualIgnoringCase(s, t)
    ensures Allows(allowed, s) <==> Allows(allowed, t)
  {
    ToUpperEqualIffEqualIgnoringCase(s, t);
  }

  /** An allowed non-empty server never starts or ends with white space. */
  lemma {:induction false} AllowedServerHasNoEdgeSpace(setting: string, server: string)
    requires Allows(FromSetting(setting), server)
    ensures HasNoEdgeSpace(server)
  {
    MembersAreNormalized(setting, ToUpper(server));
    UpperedEdgesStayNonWhite(server);
  }

  /**
   * A character that is not an ASCII letter occurs in an allowed server
   * exactly when it occurs in the allow-list entry that admitted it.
   */
  lemma {:induction false} AllowedServerSharesNonLetters(allowed: AllowList, server: string, c: char)
    requires Allows(allowed, server)
    requires !IsAsciiLetter(c)
    ensures c in server <==> c in ToUpper(server)
  {
    ToUpperKeepsNonLetters(server, c);
  }
}

=== FILE: authentication.dfy ===
/**
 * The credential carrier, the authentication filter that produces it, and
 * the authorization the action demands. The filter accepts every
 * user-name/password pair it is given; authorization then admits an
 * identity only when it is authenticated.
 */
module Authentication {
  import opened Optional

  /** The identity the filter stores: the user name and the password, as sent. */
  datatype Credentials = Credentials(name: string, password: string)

  /**
   * The principal on the request once the authentication filter has run:
   * none (or one that is not authenticated), the identity the filter stored,
   * or an authenticated principal the host attached (for instance through
   * Windows authentication) that the filter left in place.
   */
  datatype Principal = NoPrincipal | Basic(identity: Credentials) | HostUser

  /**
   * The filter: a request that carried a basic-authentication pair gets an
   * identity holding exactly that pair, whatever the host attached; a request
   * without one keeps the host's principal, if it is authenticated.
   */
  function Authenticate(hostAuthenticated: bool, basic: Option<(string, string)>): (principal: Principal)
    ensures principal.Basic? <==> basic.Some?
    ensures principal.Basic? ==>
      principal.identity.name == basic.value.0 && principal.identity.password == basic.value.1
    ensures principal.HostUser? <==> basic.None? && hostAuthenticated
  {
    match basic
    case None => if hostAuthenticated then HostUser else NoPrincipal
    case Some((user, password)) => Basic(Credentials(user, password))
  }

  /**
   * What `[Authorize]` asks of the principal: it must be authenticated. The
   * filter's identity is a generic identity, which counts as authenticated
   * only when its name is not empty.
   */
  predicate IsAuthenticated(principal: Principal)
  {
    || principal.HostUser?
    || (principal.Basic? && principal.identity.name != [])
  }

  /** The action's own test: the principal's identity is the one the filter stores, or there is none. */
  function StoredIdentity(principal: Principal): (identity: Option<Credentials>)
    ensures identity.Some? <==> principal.Basic?
    ensures identity.Some? ==> identity.value == principal.identity
  {
    if principal.Basic? then Some(principal.identity) else None
  }
}

=== FILE: chars.dfy ===
/**
 * Character and string primitives of the .NET runtime that the controller
 * relies on: `Char.IsWhiteSpace`, `String.Trim` and `String.ToUpper`.
 * Upper-casing is modelled for ASCII letters only.
 */
module Chars {

  /** The characters .NET's `Char.IsWhiteSpace` accepts. */
  predicate IsWhiteSpace(c: char)
  {
    || c == ' '
    || ('\t' <= c <= '\r')
    || c == '\U{85}'
    || c == '\U{A0}'
    || c == '\U{1680}'
    || ('\U{2000}' <= c <= '\U{200A}')
    || c == '\U{2028}'
    || c == '\U{2029}'
    || c == '\U{202F}'
    || c == '\U{205F}'
    || c == '\U{3000}'
  }

  predicate IsLower(c: char) { 'a' <= c <= 'z' }

  predicate IsUpper(c: char) { 'A' <= c <= 'Z' }

  predicate IsAsciiLetter(c: char) { IsLower(c) || IsUpper(c) }

  predicate IsDigit(c: char) { '0' <= c <= '9' }

  /** `a` and `b` are the same character up to ASCII case. */
  predicate SameIgnoringCase(a: char, b: char)
  {
    || a == b
    || (IsLower(a) && b as int == a as int - 32)
    || (IsLower(b) && a as int == b as int - 32)
  }

  /** `s` and `t` are the same string up to ASCII case. */
  predicate EqualIgnoringCase(s: string, t: string)
  {
    |s| == |t| && forall i :: 0 <= i < |s| ==> SameIgnoringCase(s[i], t[i])
  }

  function UpperChar(c: char): (u: char)
    ensures !IsLower(u)
    ensures SameIgnoringCase(c, u)
    ensures !IsAsciiLetter(c) ==> u == c
    ensures IsWhiteSpace(u) <==> IsWhiteSpace(c)
  {
    if IsLower(c) then (c as int - 32) as char else c
  }

  /** `String.ToUpper`, restricted to the ASCII letters. */
  function ToUpper(s: string): (r: string)
    ensures |r| == |s|
    ensures forall i :: 0 <= i < |r| ==> !IsLower(r[i]) && SameIgnoringCase(s[i], r[i])
  {
    seq(|s|, i requires 0 <= i < |s| => UpperChar(s[i]))
  }

  /** Upper-casing a second time changes nothing. */
  lemma ToUpperIdempotent(s: string)
    ensures ToUpper(ToUpper(s)) == ToUpper(s)
  {
  }

  /** Two strings upper-case to the same string exactly when they agree up to ASCII case. */
  lemma ToUpperEqualIffEqualIgnoringCase(s: string, t: string)
    ensures ToUpper(s) == ToUpper(t) <==> EqualIgnoringCase(s, t)
  {
    if ToUpper(s) == ToUpper(t) {
      forall i | 0 <= i < |s|
        ensures SameIgnoringCase(s[i], t[i])
      {
        assert ToUpper(s)[i] == ToUpper(t)[i];
      }
    }
    if EqualIgnoringCase(s, t) {
      forall i | 0 <= i < |s|
        ensures ToUpper(s)[i] == ToUpper(t)[i]
      {
        assert SameIgnoringCase(s[i], t[i]);
      }
    }
  }

  /** Upper-casing never adds or removes a character that is not an ASCII letter. */
  lemma ToUpperKeepsNonLetters(s: string, c: char)
    requires !IsAsciiLetter(c)
    ensures c in s <==> c in ToUpper(s)
  {
    if c in s {
      var i :| 0 <= i < |s| && s[i] == c;
      assert ToUpper(s)[i] == c;
    }
    if c in ToUpper(s) {
      var i :| 0 <= i < |s| && ToUpper(s)[i] == c;
      assert s[i] == c;
    }
  }

  /** Upper-casing does not change whether the ends of a string are white space. */
  lemma UpperedEdgesStayNonWhite(t: string)
    ensures HasNoEdgeSpace(ToUpper(t)) <==> HasNoEdgeSpace(t)
  {
    if t != [] {
      assert ToUpper(t)[0] == UpperChar(t[0]);
      assert ToUpper(t)[|t| - 1] == UpperChar(t[|t| - 1]);
    }
  }

  /** `String.TrimStart()`: drops the longest all-white-space prefix. */
  function TrimStart(s: string): (r: string)
    ensures |r| <= |s| && r == s[|s| - |r|..]
    ensures forall k :: 0 <= k < |s| - |r| ==> IsWhiteSpace(s[k])
    ensures r != [] ==> !IsWhiteSpace(r[0])
    decreases |s|
  {
    if s != [] && IsWhiteSpace(s[0]) then TrimStart(s[1..]) else s
  }

  /** `String.TrimEnd()`: drops the longest all-white-space suffix. */
  function TrimEnd(s: string): (r: string)
    ensures |r| <= |s| && r == s[..|r|]
    ensures forall k :: |r| <= k < |s| ==> IsWhiteSpace(s[k])
    ensures r != [] ==> !IsWhiteSpace(r[|r| - 1])
    decreases |s|
  {
    if s != [] && IsWhiteSpace(s[|s| - 1]) then TrimEnd(s[..|s| - 1]) else s
  }

  /** Neither the first nor the last character of `s` is white space. */
  predicate HasNoEdgeSpace(s: string)
  {
    s != [] ==> !IsWhiteSpace(s[0]) && !IsWhiteSpace(s[|s| - 1])
  }

  predicate IsAllWhiteSpace(s: string)
  {
    forall k :: 0 <= k < |s| ==> IsWhiteSpace(s[k])
  }

  /** `String.Trim()`: drops white space at both ends and nothing else. */
  function Trim(s: string): (r: string)
    ensures HasNoEdgeSpace(r)
    ensures forall c :: c in r ==> c in s
    ensures HasNoEdgeSpace(s) ==> r == s
    ensures r == [] <==> IsAllWhiteSpace(s)
    ensures exists i, j :: 0 <= i <= j <= |s| && r == s[i..j] && IsAllWhiteSpace(s[..i]) && IsAllWhiteSpace(s[j..])
  {
    var t := TrimStart(s);
    var r := TrimEnd(t);
    TrimKeepsInfix(s, t, r);
    assert r == [] ==> IsAllWhiteSpace(s) by {
      if r == [] {
        assert t == [];
      }
    }
    r
  }

  /** Trimming the start and then the end leaves an infix between two white-space runs. */
  lemma TrimKeepsInfix(s: string, t: string, r: string)
    requires t == TrimStart(s) && r == TrimEnd(t)
    ensures exists i, j :: 0 <= i <= j <= |s| && r == s[i..j] && IsAllWhiteSpace(s[..i]) && IsAllWhiteSpace(s[j..])
    ensures forall c :: c in r ==> c in s
  {
    var i := |s| - |t|;
    var j := i + |r|;
    InfixBetweenWhiteRuns(s, i, j, t, r);
    TrimKeepsCharacters(s, i, j, r);
  }

  lemma InfixBetweenWhiteRuns(s: string, i: nat, j: nat, t: string, r: string)
    requires i + |t| == |s| && t == s[i..] && |r| <= |t| && r == t[..|r|] && j == i + |r|
    requires forall k :: 0 <= k < i ==> IsWhiteSpace(s[k])
    requires forall k :: |r| <= k < |t| ==> IsWhiteSpace(t[k])
    ensures j <= |s| && r == s[i..j] && IsAllWhiteSpace(s[..i]) && IsAllWhiteSpace(s[j..])
  {
    forall k | 0 <= k < i ensures s[..i][k] == s[k] {}
    var tail := s[j..];
    forall k | 0 <= k < |tail| ensures IsWhiteSpace(tail[k]) {
      assert tail[k] == t[|r| + k];
    }
  }

  lemma TrimKeepsCharacters(s: string, i: nat, j: nat, r: string)
    requires i <= j <= |s| && r == s[i..j]
    ensures forall c :: c in r ==> c in s
  {
    forall c | c in r ensures c in s {
      var k :| 0 <= k < |r| && r[k] == c;
      assert s[i + k] == c;
    }
  }
}

=== FILE: connection_string.dfy ===
/**
 * The connection string the controller hands to the backend driver, and a
 * reference reading of the key/value grammar it is written in: entries
 * `key=value` terminated by ';' and separated by white space; the key runs to
 * the first '='; a value that opens with a single quote runs to the next
 * single quote, which must be followed by ';' or the end; any other value
 * runs to the next ';'. (Doubled-quote escapes and double-quoted values are
 * not part of this reading; no accepted field holds either quote.)
 */
module ConnectionString {
  import opened Optional
  import opened Chars
  import opened Numbers
  import Patterns

  datatype Value = Quoted(text: string) | Bare(text: string)

  datatype Entry = Entry(key: string, value: Value)

  /** The first position of `c` in `s`, if any. */
  function FirstIndex(s: string, c: char): (r: Option<nat>)
    ensures r.Some? ==> r.value < |s| && s[r.value] == c
    ensures r.Some? ==> forall k :: 0 <= k < r.value ==> s[k] != c
    ensures r.None? ==> forall k :: 0 <= k < |s| ==> s[k] != c
    decreases |s|
  {
    if s == [] then None
    else if s[0] == c then Some(0)
    else match FirstIndex(s[1..], c)
      case None => None
      case Some(i) => Some(i + 1)
  }

  lemma FirstIndexAfterPrefix(x: string, c: char, y: string)
    requires c !in x
    ensures FirstIndex(x + [c] + y, c) == Some(|x|)
  {
    var s := x + [c] + y;
    assert s[..|x|] == x;
    assert s[|x|] == c;
    assert forall k :: 0 <= k < |x| ==> s[k] != c;
  }

  function RenderValue(v: Value): string
  {
    match v
    case Quoted(t) => "'" + t + "'"
    case Bare(t) => t
  }

  function RenderEntry(e: Entry): string
  {
    e.key + "=" + RenderValue(e.value) + ";"
  }

  /** Entries in order, each terminated by ';' and the next one preceded by a space. */
  function Render(es: seq<Entry>): string
  {
    RenderFrom(es, 0)
  }

  /** The rendering of the entries from position `i` on. */
  function RenderFrom(es: seq<Entry>, i: nat): string
    decreases |es| - i
  {
    if i >= |es| then []
    else if i == |es| - 1 then RenderEntry(es[i])
    else RenderEntry(es[i]) + " " + RenderFrom(es, i + 1)
  }

  /**
   * Reads one value from `rest`: a quoted value runs to the next quote and
   * must be followed by ';' or the end; a bare value runs to the next ';' or
   * the end. Also returns the text after the terminating ';'.
   */
  function ReadValue(rest: string): (r: Option<(Value, string)>)
    ensures r.Some? ==> |r.value.1| <= |rest|
  {
    if rest != [] && rest[0] == '\'' then
      match FirstIndex(rest[1..], '\'')
      case None => None
      case Some(j) =>
        if j + 2 == |rest| then Some((Quoted(rest[1..j + 1]), []))
        else if rest[j + 2] == ';' then Some((Quoted(rest[1..j + 1]), rest[j + 3..]))
        else None
    else
      match FirstIndex(rest, ';')
      case None => Some((Bare(rest), []))
      case Some(j) => Some((Bare(rest[..j]), rest[j + 1..]))
  }

  /** Reads one `key=value` entry; also returns what follows it. */
  function ReadEntry(t: string): (r: Option<(Entry, string)>)
    ensures r.Some? ==> |r.value.1| < |t|
  {
    match FirstIndex(t, '=')
    case None => None
    case Some(i) =>
      match ReadValue(t[i + 1..])
      case None => None
      case Some((v, remainder)) => Some((Entry(t[..i], v), remainder))
  }

  /** Reads a connection string back into its entries; None when it is malformed. */
  function Parse(s: string): Option<seq<Entry>>
    decreases |s|
  {
    var t := TrimStart(s);
    if t == [] then Some([])
    else match ReadEntry(t)
      case None => None
      case Some((e, remainder)) =>
        match Parse(remainder)
        case None => None
        case Some(es) => Some([e] + es)
  }

  /** An entry that the reading recovers from its rendering. */
  predicate WellFormedEntry(e: Entry)
  {
    && e.key != []
    && !IsWhiteSpace(e.key[0])
    && '=' !in e.key
    && WellFormedValue(e.value)
  }

  predicate WellFormedValue(v: Value)
  {
    match v
    case Quoted(t) => '\'' !in t
    case Bare(t) => ';' !in t && (t == [] || t[0] != '\'')
  }

  lemma TrimStartOfNonWhite(s: string)
    requires s != [] && !IsWhiteSpace(s[0])
    ensures TrimStart(s) == s
  {
  }

  /** Leading white space does not change the reading. */
  lemma ParseIgnoresLeadingSpace(s: string)
    ensures Parse(s) == Parse(TrimStart(s))
  {
    var t := TrimStart(s);
    if t != [] {
      TrimStartOfNonWhite(t);
    }
  }

  lemma {:induction false} ReadQuotedStep(t: string, tail: string)
    requires '\'' !in t
    ensures ReadValue("'" + t + "'" + ";" + tail) == Some((Quoted(t), tail))
  {
    var rest := "'" + t + "'" + ";" + tail;
    assert rest[1..] == t + ['\''] + (";" + tail);
    FirstIndexAfterPrefix(t, '\'', ";" + tail);
    assert rest[1..|t| + 1] == t;
    assert rest[|t| + 2] == ';';
    assert rest[|t| + 3..] == tail;
  }

  lemma {:induction false} ReadBareStep(t: string, tail: string)
    requires ';' !in t && (t == [] || t[0] != '\'')
    ensures ReadValue(t + ";" + tail) == Some((Bare(t), tail))
  {
    var rest := t + ";" + tail;
    assert rest[0] != '\'';
    assert rest == t + [';'] + tail;
    FirstIndexAfterPrefix(t, ';', tail);
    assert rest[..|t|] == t;
    assert rest[|t| + 1..] == tail;
  }

  /** A rendered value followed by ';' reads back as that value, leaving what follows. */
  lemma {:induction false} ReadValueStep(v: Value, tail: string)
    requires WellFormedValue(v)
    ensures ReadValue(RenderValue(v) + ";" + tail) == Some((v, tail))
  {
    match v
    case Quoted(t) => ReadQuotedStep(t, tail);
    case Bare(t) => ReadBareStep(t, tail);
  }

  /** A rendered well-formed entry reads back as that entry, leaving what follows. */
  lemma {:induction false} ReadEntryStep(e: Entry, tail: string)
    requires WellFormedEntry(e)
    ensures ReadEntry(RenderEntry(e) + tail) == Some((e, tail))
  {
    var rest := RenderValue(e.value) + ";" + tail;
    var s := RenderEntry(e) + tail;
    assert s == e.key + ['='] + rest;
    FirstIndexAfterPrefix(e.key, '=', rest);
    assert s[..|e.key|] == e.key;
    assert s[|e.key| + 1..] == rest;
    ReadValueStep(e.value, tail);
  }

  /** Parse takes one entry off a text that starts with no white space. */
  lemma ParseStep(s: string, e: Entry, tail: string)
    requires s != [] && !IsWhiteSpace(s[0])
    requires ReadEntry(s) == Some((e, tail))
    ensures Parse(s) == match Parse(tail)
      case None => None
      case Some(es) => Some([e] + es)
  {
    TrimStartOfNonWhite(s);
  }

  /** A single space before a text does not change its reading. */
  lemma ParseSkipsSpace(x: string)
    ensures Parse(" " + x) == Parse(x)
  {
    var y := " " + x;
    assert y[0] == ' ' && y[1..] == x;
    assert TrimStart(y) == TrimStart(x);
    ParseIgnoresLeadingSpace(y);
    ParseIgnoresLeadingSpace(x);
  }

  /** Reading one rendered entry followed by a text that reads as `rest`. */
  lemma {:induction false} ParseEntryThen(e: Entry, tail: string, rest: seq<Entry>)
    requires WellFormedEntry(e)
    requires Parse(tail) == Some(rest)
    ensures Parse(RenderEntry(e) + tail) == Some([e] + rest)
  {
    var s := RenderEntry(e) + tail;
    ReadEntryStep(e, tail);
    assert s[0] == e.key[0];
    ParseStep(s, e, tail);
  }

  /** Reading a single rendered entry. */
  lemma {:induction false} ParseSingle(e: Entry)
    requires WellFormedEntry(e)
    ensures Parse(RenderEntry(e)) == Some([e])
  {
    var s := RenderEntry(e);
    assert Parse(s + []) == Some([e] + []) by {
      assert Parse([]) == Some([]);
      ParseEntryThen(e, [], []);
    }
    assert [e] + [] == [e];
    assert s + [] == s;
  }

  /** One entry in front of a text that reads back, with a space between. */
  lemma {:induction false} ParseEntrySpaceThen(e: Entry, rest: string, others: seq<Entry>)
    requires WellFormedEntry(e)
    requires Parse(rest) == Some(others)
    ensures Parse(RenderEntry(e) + (" " + rest)) == Some([e] + others)
  {
    ParseSkipsSpace(rest);
    ParseEntryThen(e, " " + rest, others);
  }

  lemma RenderFromUnfold(es: seq<Entry>, i: nat)
    requires i + 1 < |es|
    ensures RenderFrom(es, i) == RenderEntry(es[i]) + (" " + RenderFrom(es, i + 1))
  {
  }

  lemma DropCons(es: seq<Entry>, i: nat)
    requires i < |es|
    ensures es[i..] == [es[i]] + es[i + 1..]
  {
  }

  /** The step of the round trip: one more entry in front of a suffix that reads back. */
  lemma {:induction false} ParseRenderStep(es: seq<Entry>, i: nat)
    requires i + 1 < |es| && WellFormedEntry(es[i])
    requires Parse(RenderFrom(es, i + 1)) == Some(es[i + 1..])
    ensures Parse(RenderFrom(es, i)) == Some(es[i..])
  {
    ParseEntrySpaceThen(es[i], RenderFrom(es, i + 1), es[i + 1..]);
    RenderFromUnfold(es, i);
    DropCons(es, i);
  }

  /** Reading the rendering of well-formed entries from position `i` on gives back those entries. */
  lemma {:induction false} ParseRenderFrom(es: seq<Entry>, i: nat)
    requires forall k :: 0 <= k < |es| ==> WellFormedEntry(es[k])
    requires i < |es|
    ensures Parse(RenderFrom(es, i)) == Some(es[i..])
    decreases |es| - i
  {
    if i == |es| - 1 {
      ParseSingle(es[i]);
      assert es[i..] == [es[i]];
    } else {
      ParseRenderFrom(es, i + 1);
      ParseRenderStep(es, i);
    }
  }

  /** Reading a rendering of well-formed entries gives back exactly those entries. */
  lemma {:induction false} ParseRender(es: seq<Entry>)
    requires forall k :: 0 <= k < |es| ==> WellFormedEntry(es[k])
    ensures Parse(Render(es)) == Some(es)
  {
    if es == [] {
      assert Parse([]) == Some([]);
    } else {
      ParseRenderFrom(es, 0);
      assert es[0..] == es;
    }
  }


  /**
   * The connection string of the controller, interpolated from the validated
   * values with the source's text (grouped here one entry per line).
   */
  function Build(server: string, db: string, user: string, password: string,
                 locale: int, appName: string, timeout: int): string
  {
    "Data Source='" + server + "'; " + (
    "Catalog='" + db + "'; " + (
    "User ID='" + user + "'; " + (
    "Password='" + password + "'; " + (
    "Protection Level=Pkt Privacy; " + (
    "Locale Identifier=" + DecimalString(locale) + "; " + (
    "Application Name='" + appName + "'; " + (
    "Connect Timeout=" + DecimalString(timeout) + "; " + (
    "Timeout=" + DecimalString(timeout) + "; " + (
    "MDX Compatibility=1; " + (
    "MDX Missing Member Mode=Ignore; " +
    "VisualMode=0;"))))))))))
  }

  /** The entries the connection string is meant to carry, in order. */
  function Descriptor(server: string, db: string, user: string, password: string,
                      locale: int, appName: string, timeout: int): seq<Entry>
  {
    [ Entry("Data Source", Quoted(server)),
      Entry("Catalog", Quoted(db)),
      Entry("User ID", Quoted(user)),
      Entry("Password", Quoted(password)),
      Entry("Protection Level", Bare("Pkt Privacy")),
      Entry("Locale Identifier", Bare(DecimalString(locale))),
      Entry("Application Name", Quoted(appName)),
      Entry("Connect Timeout", Bare(DecimalString(timeout))),
      Entry("Timeout", Bare(DecimalString(timeout))),
      Entry("MDX Compatibility", Bare("1")),
      Entry("MDX Missing Member Mode", Bare("Ignore")),
      Entry("VisualMode", Bare("0")) ]
  }

  /** One step of the rendering, for a quoted entry that is not the last. */
  lemma QuotedStep(es: seq<Entry>, k: nat, key: string, v: string, prefix: string)
    requires k + 1 < |es| && es[k] == Entry(key, Quoted(v))
    requires prefix == key + "='"
    ensures RenderFrom(es, k) == prefix + v + "'; " + RenderFrom(es, k + 1)
  {
  }

  /** One step of the rendering, for a bare entry that is not the last. */
  lemma BareStep(es: seq<Entry>, k: nat, key: string, v: string, prefix: string)
    requires k + 1 < |es| && es[k] == Entry(key, Bare(v))
    requires prefix == key + "="
    ensures RenderFrom(es, k) == prefix + v + "; " + RenderFrom(es, k + 1)
  {
  }

  /** `d` holds the twelve entries of the descriptor, in order. */
  predicate HoldsDescriptor(d: seq<Entry>, server: string, db: string, user: string, password: string,
                            locale: int, appName: string, timeout: int)
  {
    && |d| == 12
    && d[0] == Entry("Data Source", Quoted(server))
    && d[1] == Entry("Catalog", Quoted(db))
    && d[2] == Entry("User ID", Quoted(user))
    && d[3] == Entry("Password", Quoted(password))
    && d[4] == Entry("Protection Level", Bare("Pkt Privacy"))
    && d[5] == Entry("Locale Identifier", Bare(DecimalString(locale)))
    && d[6] == Entry("Application Name", Quoted(appName))
    && d[7] == Entry("Connect Timeout", Bare(DecimalString(timeout)))
    && d[8] == Entry("Timeout", Bare(DecimalString(timeout)))
    && d[9] == Entry("MDX Compatibility", Bare("1"))
    && d[10] == Entry("MDX Missing Member Mode", Bare("Ignore"))
    && d[11] == Entry("VisualMode", Bare("0"))
  }

  /** The last four entries, rendered. */
  lemma {:induction false} RenderFrom8(d: seq<Entry>, server: string, db: string, user: string, password: string,
                                        locale: int, appName: string, timeout: int)
    requires HoldsDescriptor(d, server, db, user, password, locale, appName, timeout)
    ensures RenderFrom(d, 8)
         == "Timeout=" + DecimalString(timeout) + "; " + (
            "MDX Compatibility=1; " + (
            "MDX Missing Member Mode=Ignore; " +
            "VisualMode=0;"))
  {
    assert RenderFrom(d, 11) == "VisualMode=0;";
    BareStep(d, 10, "MDX Missing Member Mode", "Ignore", "MDX Missing Member Mode=");
    BareStep(d, 9, "MDX Compatibility", "1", "MDX Compatibility=");
    BareStep(d, 8, "Timeout", DecimalString(timeout), "Timeout=");
  }

  /** Entries six and seven, rendered in front of the rest. */
  lemma {:induction false} RenderFrom6(d: seq<Entry>, server: string, db: string, user: string, password: string,
                                        locale: int, appName: string, timeout: int)
    requires HoldsDescriptor(d, server, db, user, password, locale, appName, timeout)
    ensures RenderFrom(d, 6)
         == "Application Name='" + appName + "'; " + (
            "Connect Timeout=" + DecimalString(timeout) + "; " + RenderFrom(d, 8))
  {
    BareStep(d, 7, "Connect Timeout", DecimalString(timeout), "Connect Timeout=");
    QuotedStep(d, 6, "Application Name", appName, "Application Name='");
  }

  /** Entries four and five, rendered in front of the rest. */
  lemma {:induction false} RenderFrom4(d: seq<Entry>, server: string, db: string, user: string, password: string,
                                        locale: int, appName: string, timeout: int)
    requires HoldsDescriptor(d, server, db, user, password, locale, appName, timeout)
    ensures RenderFrom(d, 4)
         == "Protection Level=Pkt Privacy; " + (
            "Locale Identifier=" + DecimalString(locale) + "; " + RenderFrom(d, 6))
  {
    BareStep(d, 5, "Locale Identifier", DecimalString(locale), "Locale Identifier=");
    BareStep(d, 4, "Protection Level", "Pkt Privacy", "Protection Level=");
    ProtectionLevelText();
  }

  lemma ProtectionLevelText()
    ensures "Protection Level=" + "Pkt Privacy" + "; " == "Protection Level=Pkt Privacy; "
  {
  }

  /** Entries two and three, rendered in front of the rest. */
  lemma {:induction false} RenderFrom2(d: seq<Entry>, server: string, db: string, user: string, password: string,
                                        locale: int, appName: string, timeout: int)
    requires HoldsDescriptor(d, server, db, user, password, locale, appName, timeout)
    ensures RenderFrom(d, 2)
         == "User ID='" + user + "'; " + (
            "Password='" + password + "'; " + RenderFrom(d, 4))
  {
    QuotedStep(d, 3, "Password", password, "Password='");
    QuotedStep(d, 2, "User ID", user, "User ID='");
  }

  /** The first two entries, rendered in front of the rest. */
  lemma {:induction false} RenderFrom0(d: seq<Entry>, server: string, db: string, user: string, password: string,
                                        locale: int, appName: string, timeout: int)
    requires HoldsDescriptor(d, server, db, user, password, locale, appName, timeout)
    ensures Render(d)
         == "Data Source='" + server + "'; " + (
            "Catalog='" + db + "'; " + RenderFrom(d, 2))
  {
    QuotedStep(d, 1, "Catalog", db, "Catalog='");
    QuotedStep(d, 0, "Data Source", server, "Data Source='");
  }

  /** The interpolated string is the rendering of the descriptor. */
  lemma {:induction false} BuildRendersDescriptor(server: string, db: string, user: string, password: string,
                                                   locale: int, appName: string, timeout: int)
    ensures Build(server, db, user, password, locale, appName, timeout)
         == Render(Descriptor(server, db, user, password, locale, appName, timeout))
  {
    var d := Descriptor(server, db, user, password, locale, appName, timeout);
    assert HoldsDescriptor(d, server, db, user, password, locale, appName, timeout);
    RenderFrom8(d, server, db, user, password, locale, appName, timeout);
    RenderFrom6(d, server, db, user, password, locale, appName, timeout);
    RenderFrom4(d, server, db, user, password, locale, appName, timeout);
    RenderFrom2(d, server, db, user, password, locale, appName, timeout);
    RenderFrom0(d, server, db, user, password, locale, appName, timeout);
  }

  /** A key with no '=' and no white space at its ends. */
  predicate GoodKey(key: string)
  {
    key != [] && !IsWhiteSpace(key[0]) && '=' !in key
  }

  lemma QuotedEntryWellFormed(key: string, t: string)
    requires GoodKey(key) && Patterns.SlotSafe(t)
    ensures WellFormedEntry(Entry(key, Quoted(t)))
  {
    SafeIsQuotable(t);
  }

  lemma BareEntryWellFormed(key: string, t: string)
    requires GoodKey(key) && t != [] && IsDigit(t[0]) && ';' !in t
    ensures WellFormedEntry(Entry(key, Bare(t)))
  {
  }

  lemma DecimalEntryWellFormed(key: string, n: int)
    requires GoodKey(key)
    ensures WellFormedEntry(Entry(key, Bare(DecimalString(n))))
  {
    DecimalIsBareValue(n);
  }

  /** The keys of a connection string built by the proxy, four at a time. */
  lemma FirstKeysGood()
    ensures GoodKey("Data Source") && GoodKey("Catalog") && GoodKey("User ID") && GoodKey("Password")
  {
  }

  lemma MiddleKeysGood()
    ensures GoodKey("Protection Level") && GoodKey("Locale Identifier")
    ensures GoodKey("Application Name") && GoodKey("Connect Timeout")
  {
  }

  lemma LastKeysGood()
    ensures GoodKey("Timeout") && GoodKey("MDX Compatibility")
    ensures GoodKey("MDX Missing Member Mode") && GoodKey("VisualMode")
  {
  }

  /** The first six entries of the descriptor are well formed. */
  lemma {:induction false} DescriptorHeadWellFormed(server: string, db: string, user: string,
                                                    password: string, locale: int)
    requires Patterns.SlotSafe(server) && Patterns.SlotSafe(db) && Patterns.SlotSafe(user)
    requires Patterns.SlotSafe(password)
    ensures WellFormedEntry(Entry("Data Source", Quoted(server)))
    ensures WellFormedEntry(Entry("Catalog", Quoted(db)))
    ensures WellFormedEntry(Entry("User ID", Quoted(user)))
    ensures WellFormedEntry(Entry("Password", Quoted(password)))
    ensures WellFormedEntry(Entry("Protection Level", Bare("Pkt Privacy")))
    ensures WellFormedEntry(Entry("Locale Identifier", Bare(DecimalString(locale))))
  {
    FirstKeysGood();
    MiddleKeysGood();
    QuotedEntryWellFormed("Data Source", server);
    QuotedEntryWellFormed("Catalog", db);
    QuotedEntryWellFormed("User ID", user);
    QuotedEntryWellFormed("Password", password);
    DecimalEntryWellFormed("Locale Identifier", locale);
  }

  /** The last six entries of the descriptor are well formed. */
  lemma {:induction false} DescriptorTailWellFormed(appName: string, timeout: int)
    requires Patterns.SlotSafe(appName)
    ensures WellFormedEntry(Entry("Application Name", Quoted(appName)))
    ensures WellFormedEntry(Entry("Connect Timeout", Bare(DecimalString(timeout))))
    ensures WellFormedEntry(Entry("Timeout", Bare(DecimalString(timeout))))
    ensures WellFormedEntry(Entry("MDX Compatibility", Bare("1")))
    ensures WellFormedEntry(Entry("MDX Missing Member Mode", Bare("Ignore")))
    ensures WellFormedEntry(Entry("VisualMode", Bare("0")))
  {
    MiddleKeysGood();
    LastKeysGood();
    QuotedEntryWellFormed("Application Name", appName);
    DecimalEntryWellFormed("Connect Timeout", timeout);
    DecimalEntryWellFormed("Timeout", timeout);
    BareEntryWellFormed("MDX Compatibility", "1");
    BareEntryWellFormed("VisualMode", "0");
  }

  /** Every field of the descriptor is a well-formed entry once no quoted value holds a quote. */
  lemma {:induction false} DescriptorWellFormed(d: seq<Entry>, server: string, db: string, user: string,
                                                password: string, locale: int, appName: string, timeout: int)
    requires HoldsDescriptor(d, server, db, user, password, locale, appName, timeout)
    requires Patterns.SlotSafe(server) && Patterns.SlotSafe(db) && Patterns.SlotSafe(user)
    requires Patterns.SlotSafe(password) && Patterns.SlotSafe(appName)
    ensures forall k :: 0 <= k < |d| ==> WellFormedEntry(d[k])
  {
    DescriptorHeadWellFormed(server, db, user, password, locale);
    DescriptorTailWellFormed(appName, timeout);
  }

  lemma SafeIsQuotable(s: string)
    requires Patterns.SlotSafe(s)
    ensures WellFormedValue(Quoted(s))
  {
  }

  lemma DecimalIsBareValue(n: int)
    ensures WellFormedValue(Bare(DecimalString(n)))
  {
    var s := DecimalString(n);
    assert forall i :: 0 <= i < |s| ==> s[i] != ';' && s[i] != '\'' && !IsWhiteSpace(s[i]);
  }

  /**
   * No slot can be broken out of: when the five string values hold no quote,
   * semicolon or double quote, reading the connection string back yields
   * exactly the intended entries, each value intact in its own slot.
   */
  lemma {:induction false} BuildParsesBack(server: string, db: string, user: string, password: string,
                                           locale: int, appName: string, timeout: int)
    requires Patterns.SlotSafe(server) && Patterns.SlotSafe(db) && Patterns.SlotSafe(user)
    requires Patterns.SlotSafe(password) && Patterns.SlotSafe(appName)
    ensures Parse(Build(server, db, user, password, locale, appName, timeout))
         == Some(Descriptor(server, db, user, password, locale, appName, timeout))
  {
    var d := Descriptor(server, db, user, password, locale, appName, timeout);
    assert HoldsDescriptor(d, server, db, user, password, locale, appName, timeout);
    BuildRendersDescriptor(server, db, user, password, locale, appName, timeout);
    DescriptorWellFormed(d, server, db, user, password, locale, appName, timeout);
    ParseRender(d);
  }

  /**
   * Read back, the connection string has its twelve entries; each of the
   * five values sits in its own slot, and both timeouts carry the caller's
   * timeout.
   */
  lemma {:induction false} SlotsCarryTheirValues(server: string, db: string, user: string, password: string,
                                                 locale: int, appName: string, timeout: int)
    requires Patterns.SlotSafe(server) && Patterns.SlotSafe(db) && Patterns.SlotSafe(user)
    requires Patterns.SlotSafe(password) && Patterns.SlotSafe(appName)
    ensures Parse(Build(server, db, user, password, locale, appName, timeout)).Some?
    ensures var es := Parse(Build(server, db, user, password, locale, appName, timeout)).value;
      && HoldsDescriptor(es, server, db, user, password, locale, appName, timeout)
      && ParseDecimal(es[7].value.text) == Some(timeout)
      && ParseDecimal(es[8].value.text) == Some(timeout)
      && ParseDecimal(es[5].value.text) == Some(locale)
  {
    var d := Descriptor(server, db, user, password, locale, appName, timeout);
    assert HoldsDescriptor(d, server, db, user, password, locale, appName, timeout);
    BuildParsesBack(server, db, user, password, locale, appName, timeout);
    DecimalRoundTrip(timeout);
    DecimalRoundTrip(locale);
  }
}

=== FILE: numbers.dfy ===
/**
 * Decimal rendering of the controller's `int` parameters, as string
 * interpolation writes them (`Int32.ToString()` with a '-' sign), and the
 * reading a connection-string consumer applies to get the number back.
 */
module Numbers {
  import opened Optional
  import opened Chars

  /** The range of a C# `int`. */
  newtype Int32 = x: int | -0x8000_0000 <= x < 0x8000_0000

  function DigitChar(d: nat): (c: char)
    requires d < 10
    ensures IsDigit(c)
  {
    ('0' as int + d) as char
  }

  /** The decimal digits of a natural number, most significant first, no leading zeros. */
  function NatDigits(n: nat): (s: string)
    ensures |s| > 0
    ensures forall i :: 0 <= i < |s| ==> IsDigit(s[i])
    ensures s[0] == '0' ==> n == 0 && s == "0"
    decreases n
  {
    if n < 10 then [DigitChar(n)] else NatDigits(n / 10) + [DigitChar(n % 10)]
  }

  /** The text interpolation produces for an `int`. */
  function DecimalString(n: int): (s: string)
    ensures |s| > 0
    ensures forall i :: 0 <= i < |s| ==> IsDigit(s[i]) || (i == 0 && s[i] == '-')
    ensures s[0] == '0' ==> s == "0"
    ensures s[0] == '-' ==> |s| > 1 && s[1] != '0'
  {
    if n < 0 then "-" + NatDigits(-n) else NatDigits(n)
  }

  predicate AllDigits(s: string)
  {
    forall i :: 0 <= i < |s| ==> IsDigit(s[i])
  }

  /** The value of a string of decimal digits. */
  function DigitsValue(s: string): nat
    requires AllDigits(s)
    decreases |s|
  {
    if s == [] then 0 else DigitsValue(s[..|s| - 1]) * 10 + (s[|s| - 1] as int - '0' as int)
  }

  /** Reads an optionally signed decimal integer; None for any other text. */
  function ParseDecimal(s: string): Option<int>
  {
    if |s| > 1 && s[0] == '-' && AllDigits(s[1..]) then Some(0 - DigitsValue(s[1..]) as int)
    else if |s| > 0 && AllDigits(s) then Some(DigitsValue(s))
    else None
  }

  lemma {:induction false} DigitsValueOfNatDigits(n: nat)
    ensures DigitsValue(NatDigits(n)) == n
    decreases n
  {
    var s := NatDigits(n);
    if n >= 10 {
      DigitsValueOfNatDigits(n / 10);
      assert s[..|s| - 1] == NatDigits(n / 10);
    }
  }

  /** Rendering then reading gives back the number. */
  lemma {:induction false} DecimalRoundTrip(n: int)
    ensures ParseDecimal(DecimalString(n)) == Some(n)
  {
    if n < 0 {
      DigitsValueOfNatDigits(-n);
      assert DecimalString(n)[1..] == NatDigits(-n);
    } else {
      DigitsValueOfNatDigits(n);
    }
  }
}

=== FILE: optional.dfy ===
/** The absent-or-present value used for nullable inputs and partial results. */
module Optional {

  datatype Option<+T> = None | Some(value: T) {

    /** Returns the value held in Some, or the given default for None. */
    function GetOr(default: T): T
    {
      match this
      case Some(v) => v
      case None => default
    }
  }
}

=== FILE: patterns.dfy ===
/**
 * The four character-class patterns of the controller's field checks,
 * `^[S]+$` for a field-specific set S.
 *
 * `Matches` is the whole-string test the checks are meant to perform: the
 * value is non-empty and every character is in S. .NET's `$` also matches
 * just before a final line feed, so the patterns as written accept one
 * trailing '\n' as well; `MatchesAsWritten` and the scan `IsMatch` model that.
 */
module Patterns {
  import opened Chars

  /** The field a pattern guards. */
  datatype CharClass = DbName | AppName | UserName | Password

  predicate IsAsciiAlphanumeric(c: char)
  {
    IsAsciiLetter(c) || IsDigit(c)
  }

  /** The characters a class admits besides ASCII letters and digits. */
  function Symbols(cls: CharClass): string
  {
    match cls
    case DbName => "_-"
    case AppName => "_-!@#$%^&*()+.:"
    case UserName => "_-!#$%^&*()+."
    case Password => "_-!@#$%^&*()+.:"
  }

  predicate InClass(cls: CharClass, c: char)
  {
    IsAsciiAlphanumeric(c) || c in Symbols(cls)
  }

  /** The intended whole-string test: non-empty, every character in the class. */
  predicate Matches(cls: CharClass, s: string)
  {
    |s| > 0 && forall i :: 0 <= i < |s| ==> InClass(cls, s[i])
  }

  /** What `Regex.IsMatch(s, "^[S]+$")` accepts: `$` may also sit before a final '\n'. */
  predicate MatchesAsWritten(cls: CharClass, s: string)
  {
    || Matches(cls, s)
    || (|s| > 1 && s[|s| - 1] == '\n' && Matches(cls, s[..|s| - 1]))
  }

  /**
   * Which end anchor a check applies: the intended end of input, or the
   * .NET `$` of the patterns as written.
   */
  datatype Reading = Intended | AsWritten

  /** The field check under a given reading of `$`. */
  predicate Accepts(reading: Reading, cls: CharClass, s: string)
  {
    match reading
    case Intended => Matches(cls, s)
    case AsWritten => MatchesAsWritten(cls, s)
  }

  /**
   * The regular-expression scan: `[S]+` consumes the longest run of class
   * characters from the start, then `$` must find the end of the input or a
   * final line feed.
   */
  method IsMatch(cls: CharClass, s: string) returns (matched: bool)
    ensures matched <==> MatchesAsWritten(cls, s)
  {
    var i := 0;
    while i < |s| && InClass(cls, s[i])
      invariant 0 <= i <= |s|
      invariant forall k :: 0 <= k < i ==> InClass(cls, s[k])
    {
      i := i + 1;
    }
    ScanStopsAt(cls, s, i);
    matched := i > 0 && (i == |s| || (i == |s| - 1 && s[i] == '\n'));
  }

  /** Where the longest run of class characters stops decides the match. */
  lemma ScanStopsAt(cls: CharClass, s: string, i: nat)
    requires i <= |s|
    requires forall k :: 0 <= k < i ==> InClass(cls, s[k])
    requires i == |s| || !InClass(cls, s[i])
    ensures MatchesAsWritten(cls, s) <==> i > 0 && (i == |s| || (i == |s| - 1 && s[i] == '\n'))
  {
    if i < |s| {
      assert !Matches(cls, s);
      if |s| > 1 && s[|s| - 1] == '\n' {
        assert Matches(cls, s[..|s| - 1]) <==> i == |s| - 1 && i > 0 by {
          if i < |s| - 1 {
            assert s[..|s| - 1][i] == s[i];
          }
        }
      }
    }
  }

  /** A value that cannot leave a quoted slot of a connection string or start a new entry. */
  predicate SlotSafe(s: string)
  {
    forall i :: 0 <= i < |s| ==> s[i] != '\'' && s[i] != ';' && s[i] != '"'
  }

  /** The database pattern, spelled out: letters, digits, '_' and '-', at least one. */
  lemma {:induction false} DbNameCharacters(s: string)
    ensures Matches(DbName, s) <==>
      |s| > 0 && forall i :: 0 <= i < |s| ==>
        ('A' <= s[i] <= 'Z' || 'a' <= s[i] <= 'z' || '0' <= s[i] <= '9' || s[i] == '_' || s[i] == '-')
  {
    assert forall c :: InClass(DbName, c) <==>
      ('A' <= c <= 'Z' || 'a' <= c <= 'z' || '0' <= c <= '9' || c == '_' || c == '-');
  }

  /** The user-name class is the password class without '@' and ':'. */
  lemma UserNameIsPasswordWithoutAtAndColon(c: char)
    ensures InClass(UserName, c) <==> InClass(Password, c) && c != '@' && c != ':'
  {
  }

  /** The password and application-name patterns admit the same characters. */
  lemma PasswordSameAsAppName(c: char)
    ensures InClass(Password, c) <==> InClass(AppName, c)
  {
  }

  /** The database class is the narrowest: it lies inside every other class. */
  lemma DbNameIsNarrowest(cls: CharClass, c: char)
    requires InClass(DbName, c)
    ensures InClass(cls, c)
  {
  }

  /** `a@b` is a valid password and application name but not a valid user name. */
  lemma AtSignOnlyOutsideUserName()
    ensures Matches(Password, "a@b") && Matches(AppName, "a@b")
    ensures !Matches(UserName, "a@b")
  {
    assert "a@b"[1] == '@';
  }

  /** Every accepted value is slot-safe, under either reading of the pattern. */
  lemma {:induction false} AcceptedIsSlotSafe(cls: CharClass, s: string)
    requires MatchesAsWritten(cls, s)
    ensures SlotSafe(s)
  {
    if !Matches(cls, s) {
      var t := s[..|s| - 1];
      forall i | 0 <= i < |s| - 1 ensures InClass(cls, s[i]) {
        assert s[i] == t[i];
      }
    }
  }

  /** A value accepted by the intended test holds no white space and no '='. */
  lemma {:induction false} MatchedHasNoWhiteSpace(cls: CharClass, s: string)
    requires Matches(cls, s)
    ensures forall i :: 0 <= i < |s| ==> !IsWhiteSpace(s[i]) && s[i] != '='
  {
    forall i | 0 <= i < |s| ensures !IsWhiteSpace(s[i]) && s[i] != '=' {
      assert InClass(cls, s[i]);
    }
  }

  /**
   * The patterns as written accept exactly the intended values plus those
   * values followed by one line feed.
   */
  lemma {:induction false} AsWrittenAddsTrailingLineFeed(cls: CharClass, s: string)
    ensures MatchesAsWritten(cls, s) <==>
      Matches(cls, s) || (exists t :: Matches(cls, t) && s == t + "\n")
  {
    if |s| > 1 && s[|s| - 1] == '\n' && Matches(cls, s[..|s| - 1]) {
      assert s == s[..|s| - 1] + "\n";
    }
    if t :| Matches(cls, t) && s == t + "\n" {
      assert s[..|s| - 1] == t;
    }
  }

  /** As written, the database check lets "Sales\n" through although it holds white space. */
  lemma TrailingLineFeedAccepted()
    ensures MatchesAsWritten(DbName, "Sales\n")
    ensures !Matches(DbName, "Sales\n")
    ensures IsWhiteSpace("Sales\n"[5])
  {
    assert "Sales\n"[..5] == "Sales";
    assert !InClass(DbName, "Sales\n"[5]);
  }

  /** The default application name passes its own pattern. */
  lemma DefaultAppNameMatches()
    ensures Matches(AppName, "SSASQueryProxy")
  {
  }

  /**
   * What a check lets through under either reading: a non-empty, slot-safe
   * value whose only possible white space is a final line feed, and that
   * only as written.
   */
  lemma {:induction false} AcceptedShape(reading: Reading, cls: CharClass, s: string)
    requires Accepts(reading, cls, s)
    ensures s != [] && SlotSafe(s)
    ensures forall i :: 0 <= i < |s| - 1 ==> !IsWhiteSpace(s[i])
    ensures IsWhiteSpace(s[|s| - 1]) ==> reading == AsWritten && s[|s| - 1] == '\n'
  {
    AcceptedIsSlotSafe(cls, s);
    if Matches(cls, s) {
      MatchedHasNoWhiteSpace(cls, s);
    } else {
      var t := s[..|s| - 1];
      MatchedHasNoWhiteSpace(cls, t);
      forall i | 0 <= i < |s| - 1 ensures !IsWhiteSpace(s[i]) {
        assert s[i] == t[i];
      }
    }
  }
}

=== FILE: proxy.dfy ===
/**
 * The query action as a whole and the request pipeline in front of it:
 * action selection, the authentication and authorization filters, the trace
 * line, the validation chain, the responses it produces, and the command
 * handed to the analysis server when every check passes. Opening the
 * connection and running the command are outside the model; `Execute`
 * records what would be run and how.
 *
 * The `reading` parameter selects the code as written (the trace line's
 * `Substring(0, 512)` and the patterns' `$`) or as intended (a prefix of at
 * most 512 characters and the whole-string test).
 */
module Proxy {
  import opened Optional
  import opened Chars
  import opened Numbers
  import opened Authentication
  import opened AllowList
  import opened Splitting
  import opened Validation
  import ConnectionString
  import Patterns

  datatype Outcome =
    | Respond(status: int, message: string)
      /** An exception escaped the action; the exception filter answers 500. */
    | Fault
      /** Open a connection with this string and run the body as a command with this timeout. */
    | Execute(connectionString: string, commandText: string, commandTimeout: Int32)
      /** `[Authorize]` refused the request before the action ran; the framework answers 401. */
    | Denied
      /** No action takes the request, because a parameter without a default is missing. */
    | NotSelected

  const Unauthorized401 := 401
  const BadRequest400 := 400

  /** The error message of each 400 response. */
  function BadRequestMessage(f: Field): string
  {
    match f
    case Server => "Parameter server contains forbidden value (not in allowed servers list)"
    case Db => "Parameter db contains forbidden characters"
    case ApplicationName => "Parameter applicationName contains forbidden characters"
    case UserName => "User's username contains forbidden characters"
    case Password => "User's password contains forbidden characters"
  }

  const MissingCredentialsMessage := "Basic authentication credentials not found in request"

  /** The connection string for values that passed every check. */
  function ConnectionStringFor(v: Validated): string
  {
    ConnectionString.Build(v.server, v.db, v.user, v.password, v.localeIdentifier as int,
                           v.applicationName, v.timeout as int)
  }

  /** The first 512 characters of the query, or all of it when it is shorter. */
  function TracePrefix(query: string): (prefix: string)
    ensures prefix <= query
    ensures |prefix| == if |query| < 512 then |query| else 512
  {
    if |query| < 512 then query else query[..512]
  }

  /** Whether the trace line throws before any check runs. */
  predicate TraceThrows(reading: Patterns.Reading, query: string)
  {
    reading == Patterns.AsWritten && |query| < 512
  }

  /**
   * The query part of the trace line; `None` when taking it throws. As
   * written it is `Substring(0, 512)`, which needs at least 512 characters;
   * whenever it does not throw it agrees with `TracePrefix`.
   */
  function TraceQuery(reading: Patterns.Reading, query: string): (traced: Option<string>)
    ensures traced.None? <==> TraceThrows(reading, query)
    ensures traced.Some? ==> traced.value == TracePrefix(query)
  {
    match reading
    case Intended => Some(TracePrefix(query))
    case AsWritten => if |query| < 512 then None else Some(query[0..512])
  }

  /** The action itself, from the trace line to the command it runs. */
  function Post(reading: Patterns.Reading, identity: Option<Credentials>, allowed: AllowList,
                req: QueryRequest, body: string): (outcome: Outcome)
    ensures TraceThrows(reading, body) ==> outcome == Fault
    ensures !TraceThrows(reading, body) ==>
      var verdict := Validate(reading, identity, allowed, req);
      && (outcome.Execute? <==> verdict.Accepted?)
      && (outcome == Respond(Unauthorized401, MissingCredentialsMessage) <==> identity.None?)
      && (outcome.Respond? && outcome.status == BadRequest400 <==> verdict.Rejected? && verdict.why.BadRequest?)
      && (outcome.Fault? <==> verdict.Rejected? && verdict.why.NullArgument?)
    ensures outcome.Respond? && outcome.status == BadRequest400 ==>
      outcome.message == BadRequestMessage(Validate(reading, identity, allowed, req).why.field)
    ensures outcome.Execute? ==>
      && outcome.commandText == body
      && outcome.commandTimeout == req.timeout
      && outcome.connectionString == ConnectionStringFor(Validate(reading, identity, allowed, req).values)
    ensures !outcome.Denied? && !outcome.NotSelected?
  {
    match TraceQuery(reading, body)
    case None => Fault
    case Some(_) =>
      match Validate(reading, identity, allowed, req)
      case Rejected(Unauthorized) => Respond(Unauthorized401, MissingCredentialsMessage)
      case Rejected(BadRequest(f)) => Respond(BadRequest400, BadRequestMessage(f))
      case Rejected(NullArgument(_)) => Fault
      case Accepted(v) => Execute(ConnectionStringFor(v), body, v.timeout)
  }

  /**
   * The pipeline for a started application: action selection and binding,
   * then the authentication filter and `[Authorize]`, then the action. The
   * host may have attached an authenticated principal of its own; the filter
   * replaces it only when the request carries a basic-authentication pair.
   */
  function Handle(reading: Patterns.Reading, allowed: AllowList, hostAuthenticated: bool,
                  basic: Option<(string, string)>, params: UriParams, body: string): (outcome: Outcome)
    ensures outcome == NotSelected <==> params.server.None? || params.db.None?
    ensures params.server.Some? && params.db.Some? ==>
      (outcome == Denied <==> if basic.Some? then basic.value.0 == [] else !hostAuthenticated)
    ensures params.server.Some? && params.db.Some? && basic.None? && hostAuthenticated ==>
      outcome == if TraceThrows(reading, body) then Fault else Respond(Unauthorized401, MissingCredentialsMessage)
    ensures outcome == Respond(Unauthorized401, MissingCredentialsMessage) <==>
      && params.server.Some? && params.db.Some?
      && basic.None? && hostAuthenticated
      && !TraceThrows(reading, body)
    ensures outcome.Execute? ==>
      && basic.Some? && basic.value.0 != []
      && Bind(params).Some?
      && outcome == Post(reading, Some(Credentials(basic.value.0, basic.value.1)), allowed, Bind(params).value, body)
  {
    match Bind(params)
    case None => NotSelected
    case Some(req) =>
      var principal := Authenticate(hostAuthenticated, basic);
      if !IsAuthenticated(principal) then Denied
      else Post(reading, StoredIdentity(principal), allowed, req, body)
  }

  /**
   * A request to the service: the allow-list is read once from the
   * `allowedSsasServers` setting. With the setting missing the reading
   * throws, at the latest when a request reaches the server check; the model
   * faults every request then.
   */
  function Serve(reading: Patterns.Reading, setting: Option<string>, hostAuthenticated: bool,
                 basic: Option<(string, string)>, params: UriParams, body: string): Outcome
  {
    match Load(setting)
    case None => Fault
    case Some(allowed) => Handle(reading, allowed, hostAuthenticated, basic, params, body)
  }

  /**
   * With an identity present, the action's outcome follows the field checks:
   * a command runs exactly when the trace line does not throw and all five
   * checks pass; the first failing check gives its own 400; and the action
   * faults exactly when the trace line throws or the first check that does
   * not pass meets a null.
   */
  lemma {:induction false} OutcomeFollowsChecks(reading: Patterns.Reading, c: Credentials, allowed: AllowList,
                                                req: QueryRequest, body: string, f: Field)
    ensures Post(reading, Some(c), allowed, req, body).Execute? <==>
      !TraceThrows(reading, body) && forall g :: CheckField(reading, allowed, c, req, g) == Pass
    ensures !TraceThrows(reading, body) && FirstNotPassing(reading, allowed, c, req, f)
            && CheckField(reading, allowed, c, req, f) == Fail ==>
      Post(reading, Some(c), allowed, req, body) == Respond(BadRequest400, BadRequestMessage(f))
    ensures Post(reading, Some(c), allowed, req, body).Fault? <==>
      || TraceThrows(reading, body)
      || exists g :: FirstNotPassing(reading, allowed, c, req, g) && CheckField(reading, allowed, c, req, g) == Throws
  {
    ValidateFindsFirstFailure(reading, allowed, c, req, f);
    var verdict := Validate(reading, Some(c), allowed, req);
    if verdict.Rejected? {
      ValidateFindsFirstFailure(reading, allowed, c, req, verdict.why.field);
    }
    forall g | FirstNotPassing(reading, allowed, c, req, g) && CheckField(reading, allowed, c, req, g) == Throws
      ensures verdict == Rejected(NullArgument(g))
    {
      ValidateFindsFirstFailure(reading, allowed, c, req, g);
    }
  }

  /** The server 400's message is longer than every other 400's. */
  lemma ServerMessageStandsOut(f: Field)
    requires f != Server
    ensures |BadRequestMessage(f)| < |BadRequestMessage(Server)|
  {
    match f
    case Db => DbMessageIsShorter();
    case ApplicationName => ApplicationNameMessageIsShorter();
    case UserName => UserNameMessageIsShorter();
    case Password => PasswordMessageIsShorter();
  }

  lemma DbMessageIsShorter()
    ensures |BadRequestMessage(Db)| < |BadRequestMessage(Server)|
  {
  }

  lemma ApplicationNameMessageIsShorter()
    ensures |BadRequestMessage(ApplicationName)| < |BadRequestMessage(Server)|
  {
  }

  lemma UserNameMessageIsShorter()
    ensures |BadRequestMessage(UserName)| < |BadRequestMessage(Server)|
  {
  }

  lemma PasswordMessageIsShorter()
    ensures |BadRequestMessage(Password)| < |BadRequestMessage(Server)|
  {
  }

  /**
   * Against the setting itself: an authenticated request whose server is
   * bound gets the server 400 exactly when no non-empty piece of the setting,
   * trimmed and upper-cased, equals the upper-cased server name.
   */
  lemma {:induction false} ServeRefusesUnlistedServer(reading: Patterns.Reading, setting: string, hostAuthenticated: bool,
                                                      user: string, password: string, params: UriParams, body: string)
    requires user != []
    requires params.server.Some? && params.db.Some? && !IsAllWhiteSpace(params.server.value)
    requires !TraceThrows(reading, body)
    ensures Serve(reading, Some(setting), hostAuthenticated, Some((user, password)), params, body)
         == Respond(BadRequest400, BadRequestMessage(Server))
        <==> !exists p :: p in Split(setting, ';') && p != [] && Normalize(p) == ToUpper(params.server.value)
  {
    var req := Bind(params).value;
    var c := Credentials(user, password);
    assert Serve(reading, Some(setting), hostAuthenticated, Some((user, password)), params, body)
        == Post(reading, Some(c), FromSetting(setting), req, body);
    ServerRefusal(reading, c, FromSetting(setting), req, body);
    AllowsIffSomePieceNormalizesToIt(setting, params.server.value);
  }

  /** With an identity, the server 400 answers exactly when the server is bound and not allowed. */
  lemma {:induction false} ServerRefusal(reading: Patterns.Reading, c: Credentials, allowed: AllowList,
                                         req: QueryRequest, body: string)
    requires req.server.Some? && !TraceThrows(reading, body)
    ensures Post(reading, Some(c), allowed, req, body) == Respond(BadRequest400, BadRequestMessage(Server))
        <==> !Allows(allowed, req.server.value)
  {
    var verdict := Validate(reading, Some(c), allowed, req);
    if Allows(allowed, req.server.value) {
      assert verdict != Rejected(BadRequest(Server));
      if verdict.Rejected? && verdict.why.BadRequest? {
        ServerMessageStandsOut(verdict.why.field);
      }
    } else {
      assert verdict == Rejected(BadRequest(Server));
    }
  }

  /**
   * Read back, the connection string of a run command holds exactly the
   * validated values, each in its own slot; `Connect Timeout` and `Timeout`
   * both carry the command timeout, and the locale identifier is passed
   * through unchanged. This holds under either reading and needs the
   * allow-list entries themselves to be free of quotes and semicolons.
   */
  lemma {:induction false} ConnectionStringReadsBack(reading: Patterns.Reading, identity: Option<Credentials>,
                                                     allowed: AllowList, req: QueryRequest, body: string)
    requires Post(reading, identity, allowed, req, body).Execute?
    requires forall e :: e in allowed ==> Patterns.SlotSafe(e)
    ensures var o := Post(reading, identity, allowed, req, body);
            var v := Validate(reading, identity, allowed, req).values;
            var es := ConnectionString.Parse(o.connectionString);
            && es == Some(ConnectionString.Descriptor(v.server, v.db, v.user, v.password,
                                                      v.localeIdentifier as int, v.applicationName, v.timeout as int))
            && ParseDecimal(es.value[7].value.text) == Some(o.commandTimeout as int)
            && ParseDecimal(es.value[8].value.text) == Some(o.commandTimeout as int)
            && ParseDecimal(es.value[5].value.text) == Some(req.localeIdentifier as int)
  {
    var v := Validate(reading, identity, allowed, req).values;
    AcceptedValuesAreSlotSafe(reading, identity, allowed, req);
    ConnectionString.BuildParsesBack(v.server, v.db, v.user, v.password,
                                     v.localeIdentifier as int, v.applicationName, v.timeout as int);
    ConnectionString.SlotsCarryTheirValues(v.server, v.db, v.user, v.password,
                                           v.localeIdentifier as int, v.applicationName, v.timeout as int);
  }

  /**
   * Absent optional parameters take their defaults: locale 1029, application
   * name "SSASQueryProxy" (which passes its own check) and timeout 120.
   */
  lemma {:induction false} DefaultsApply(reading: Patterns.Reading, identity: Option<Credentials>, allowed: AllowList,
                                         params: UriParams, body: string)
    requires params.server.Some? && params.db.Some?
    requires params.localeIdentifier.None? && params.applicationName.None? && params.timeout.None?
    ensures Bind(params).Some?
    ensures var req := Bind(params).value;
            && req.localeIdentifier == 1029 && req.applicationName == Some("SSASQueryProxy") && req.timeout == 120
            && Validate(reading, identity, allowed, req) != Rejected(BadRequest(ApplicationName))
            && Validate(reading, identity, allowed, req) != Rejected(NullArgument(ApplicationName))
    ensures var o := Post(reading, identity, allowed, Bind(params).value, body);
            o.Execute? ==> o.commandTimeout == 120
  {
    Patterns.DefaultAppNameMatches();
  }

  /**
   * An explicitly empty application name binds to null, so once server and
   * db have passed the action faults instead of answering 400.
   */
  lemma {:induction false} EmptyApplicationNameFaults(reading: Patterns.Reading, c: Credentials, allowed: AllowList,
                                                      params: UriParams, body: string)
    requires params.server.Some? && !IsAllWhiteSpace(params.server.value) && Allows(allowed, params.server.value)
    requires params.db.Some? && !IsAllWhiteSpace(params.db.value)
    requires Patterns.Accepts(reading, Patterns.DbName, params.db.value)
    requires params.applicationName == Some("")
    requires !TraceThrows(reading, body)
    ensures Bind(params).Some? && Bind(params).value.applicationName.None?
    ensures Post(reading, Some(c), allowed, Bind(params).value, body) == Fault
  {
  }

  /** A server name holding ';' is refused with a 400, whatever the configured allow-list. */
  lemma {:induction false} SemicolonServerRefused(reading: Patterns.Reading, setting: string, c: Credentials,
                                                  req: QueryRequest, body: string)
    requires req.server.Some? && ';' in req.server.value
    requires !TraceThrows(reading, body)
    ensures Post(reading, Some(c), FromSetting(setting), req, body)
         == Respond(BadRequest400, BadRequestMessage(Server))
  {
    SemicolonNeverAllowed(setting, req.server.value);
  }

  /**
   * An application name holding a double quote is refused with the
   * applicationName 400 once server and db have passed, under either reading.
   */
  lemma {:induction false} QuotedAppNameRefused(reading: Patterns.Reading, c: Credentials, allowed: AllowList,
                                                req: QueryRequest, body: string)
    requires req.server.Some? && Allows(allowed, req.server.value)
    requires req.db.Some? && Patterns.Accepts(reading, Patterns.DbName, req.db.value)
    requires req.applicationName.Some? && '"' in req.applicationName.value
    requires !TraceThrows(reading, body)
    ensures Post(reading, Some(c), allowed, req, body) == Respond(BadRequest400, BadRequestMessage(ApplicationName))
  {
    var a := req.applicationName.value;
    var i :| 0 <= i < |a| && a[i] == '"';
    if Patterns.Accepts(reading, Patterns.AppName, a) {
      Patterns.AcceptedShape(reading, Patterns.AppName, a);
    }
  }

  /**
   * The trace line as written breaks every ordinary query: an authorized,
   * valid request whose body is shorter than 512 characters faults before
   * any check, where the action with a non-throwing trace line runs it.
   */
  lemma ShortQueryFaults()
    ensures var basic := Some(("alice", "s3cret"));
            var params := UriParams(Some("prod1"), Some("Sales"), None, None, None);
            var body := "SELECT 1 ON 0 FROM [Cube]";
            && Handle(Patterns.AsWritten, {"PROD1"}, false, basic, params, body) == Fault
            && Handle(Patterns.Intended, {"PROD1"}, false, basic, params, body).Execute?
  {
    assert !IsWhiteSpace("prod1"[0]) && !IsWhiteSpace("Sales"[0]);
    assert ToUpper("prod1") == "PROD1";
    assert Patterns.Matches(Patterns.DbName, "Sales");
    assert Patterns.Matches(Patterns.UserName, "alice");
    assert Patterns.Matches(Patterns.Password, "s3cret");
    Patterns.DefaultAppNameMatches();
  }

  /**
   * As written, a database name with a trailing line feed passes its check
   * and reaches the `Catalog` slot of the connection string.
   */
  lemma LineFeedReachesCatalogAsWritten(body: string)
    requires |body| >= 512
    ensures var identity := Some(Credentials("alice", "s3cret"));
            var req := QueryRequest(Some("prod1"), Some("Sales\n"), 1029, Some("SSASQueryProxy"), 120);
            && Post(Patterns.AsWritten, identity, {"PROD1"}, req, body).Execute?
            && Validate(Patterns.AsWritten, identity, {"PROD1"}, req).values.db == "Sales\n"
  {
    assert ToUpper("prod1") == "PROD1";
    Patterns.TrailingLineFeedAccepted();
    assert Patterns.Matches(Patterns.UserName, "alice");
    assert Patterns.Matches(Patterns.Password, "s3cret");
    Patterns.DefaultAppNameMatches();
  }

  /** The intended whole-string test refuses the same request with the db 400. */
  lemma LineFeedRefusedAsIntended(body: string)
    ensures var identity := Some(Credentials("alice", "s3cret"));
            var req := QueryRequest(Some("prod1"), Some("Sales\n"), 1029, Some("SSASQueryProxy"), 120);
            Post(Patterns.Intended, identity, {"PROD1"}, req, body) == Respond(BadRequest400, BadRequestMessage(Db))
  {
    assert ToUpper("prod1") == "PROD1";
    Patterns.TrailingLineFeedAccepted();
  }
}

=== FILE: split.dfy ===
/**
 * `String.Split` on a single separator character, with and without
 * `StringSplitOptions.RemoveEmptyEntries`, and its inverse `Join`.
 */
module Splitting {

  /** Puts `sep` between consecutive parts. */
  function Join(parts: seq<string>, sep: char): string
    requires |parts| >= 1
    decreases |parts|
  {
    if |parts| == 1 then parts[0] else parts[0] + [sep] + Join(parts[1..], sep)
  }

  /**
   * `s.Split(sep)` without options: the maximal separator-free pieces of `s`,
   * one more than there are separators, empty pieces included.
   */
  function Split(s: string, sep: char): (parts: seq<string>)
    ensures |parts| >= 1
    ensures forall p :: p in parts ==> sep !in p
    ensures Join(parts, sep) == s
    decreases |s|
  {
    if s == [] then [[]]
    else
      var rest := Split(s[1..], sep);
      if s[0] == sep then
        [[]] + rest
      else
        var parts := [[s[0]] + rest[0]] + rest[1..];
        assert Join(parts, sep) == s by {
          if |rest| > 1 {
            assert parts[1..] == rest[1..];
            assert Join(rest, sep) == rest[0] + [sep] + Join(rest[1..], sep);
            assert s == [s[0]] + s[1..];
          }
        }
        parts
  }

  /** Splitting a string whose first `|x|` characters hold no separator. */
  lemma {:induction false} SplitPrefix(x: string, y: string, sep: char)
    requires sep !in x
    ensures Split(x + y, sep) == [x + Split(y, sep)[0]] + Split(y, sep)[1..]
    decreases |x|
  {
    var ys := Split(y, sep);
    if x == [] {
      assert x + y == y;
      assert x + ys[0] == ys[0];
      assert ys == [ys[0]] + ys[1..];
    } else {
      var s := x + y;
      assert s[0] == x[0] && s[0] != sep;
      assert s[1..] == x[1..] + y;
      SplitPrefix(x[1..], y, sep);
      var rest := Split(s[1..], sep);
      assert rest == [x[1..] + ys[0]] + ys[1..];
      assert Split(s, sep) == [[s[0]] + rest[0]] + rest[1..];
      assert [x[0]] + (x[1..] + ys[0]) == x + ys[0];
    }
  }

  /** Split undoes Join whenever no part holds the separator: the split is unique. */
  lemma {:induction false} SplitJoin(parts: seq<string>, sep: char)
    requires |parts| >= 1
    requires forall p :: p in parts ==> sep !in p
    ensures Split(Join(parts, sep), sep) == parts
    decreases |parts|
  {
    if |parts| == 1 {
      SplitPrefix(parts[0], [], sep);
    } else {
      var tail := Join(parts[1..], sep);
      SplitJoin(parts[1..], sep);
      SplitAfterSeparator(tail, sep);
      SplitPrefix(parts[0], [sep] + tail, sep);
      assert Join(parts, sep) == parts[0] + ([sep] + tail);
      assert parts[0] + [] == parts[0];
      assert parts == [parts[0]] + parts[1..];
    }
  }

  /** A leading separator closes an empty first piece. */
  lemma SplitAfterSeparator(tail: string, sep: char)
    ensures Split([sep] + tail, sep) == [[]] + Split(tail, sep)
  {
    assert ([sep] + tail)[1..] == tail;
  }

  /** `StringSplitOptions.RemoveEmptyEntries`: keeps the non-empty parts, in order. */
  function RemoveEmptyEntries(parts: seq<string>): (r: seq<string>)
    ensures forall p :: p in r <==> p in parts && p != []
    ensures |r| <= |parts|
  {
    if parts == [] then []
    else if parts[0] == [] then RemoveEmptyEntries(parts[1..])
    else [parts[0]] + RemoveEmptyEntries(parts[1..])
  }
}

=== FILE: validation.dfy ===
/**
 * The validation chain at the head of the query action: the identity check,
 * then the five field checks in their fixed order. The first check that does
 * not pass decides the verdict; a field the request did not supply at all
 * (a null reference) makes its check throw instead of fail.
 */
module Validation {
  import opened Optional
  import opened Chars
  import opened Numbers
  import opened Authentication
  import opened AllowList
  import Patterns

  /** The checked fields, named after the request parameter or credential they test. */
  datatype Field = Server | Db | ApplicationName | UserName | Password

  /** Why a request is refused: no identity, a value that fails its check, or a missing value. */
  datatype Rejection = Unauthorized | BadRequest(field: Field) | NullArgument(field: Field)

  /**
   * The arguments the action receives. `None` is a null reference: the
   * string parameters can arrive null, the integers cannot.
   */
  datatype QueryRequest = QueryRequest(server: Option<string>, db: Option<string>, localeIdentifier: Int32,
                                       applicationName: Option<string>, timeout: Int32)

  /**
   * The URI parameters as they arrive. A string parameter is `None` when the
   * query string lacks it; an integer one is `None` when it is absent, and
   * otherwise holds the `Int32` its text converted to.
   */
  datatype UriParams = UriParams(server: Option<string>, db: Option<string>, localeIdentifier: Option<Int32>,
                                 applicationName: Option<string>, timeout: Option<Int32>)

  /** The defaults of the action's optional parameters. */
  const DefaultLocaleIdentifier: Int32 := 1029
  const DefaultApplicationName: string := "SSASQueryProxy"
  const DefaultTimeout: Int32 := 120

  /** A string parameter's text binds to null when it is empty or all white space. */
  function BindString(text: string): Option<string>
  {
    if IsAllWhiteSpace(text) then None else Some(text)
  }

  /** `v` is what the text `text` binds to: the text itself, or null exactly when it is blank. */
  predicate BoundFrom(text: string, v: Option<string>)
  {
    && (v.None? <==> IsAllWhiteSpace(text))
    && (v.Some? ==> v.value == text)
  }

  /**
   * Parameter binding. Without `server` or `db`, which have no default, the
   * action is not selected at all (`None`); an absent optional parameter
   * takes its default.
   */
  function Bind(p: UriParams): (req: Option<QueryRequest>)
    ensures req.Some? <==> p.server.Some? && p.db.Some?
    ensures req.Some? ==>
      && BoundFrom(p.server.value, req.value.server)
      && BoundFrom(p.db.value, req.value.db)
      && (p.applicationName.None? ==> req.value.applicationName == Some(DefaultApplicationName))
      && (p.applicationName.Some? ==> BoundFrom(p.applicationName.value, req.value.applicationName))
      && req.value.localeIdentifier == (if p.localeIdentifier.Some? then p.localeIdentifier.value else DefaultLocaleIdentifier)
      && req.value.timeout == (if p.timeout.Some? then p.timeout.value else DefaultTimeout)
  {
    if p.server.None? || p.db.None? then None
    else
      var applicationName := match p.applicationName
        case None => Some(DefaultApplicationName)
        case Some(text) => BindString(text);
      Some(QueryRequest(BindString(p.server.value), BindString(p.db.value),
                        p.localeIdentifier.GetOr(DefaultLocaleIdentifier), applicationName,
                        p.timeout.GetOr(DefaultTimeout)))
  }

  /** Everything the connection string is built from, once every check has passed. */
  datatype Validated = Validated(server: string, db: string, user: string, password: string,
                                 localeIdentifier: Int32, applicationName: string, timeout: Int32)

  datatype Verdict = Accepted(values: Validated) | Rejected(why: Rejection)

  /**
   * The action's checks, in the order the action performs them, with the
   * pattern checks under the given reading of their end anchor.
   */
  function Validate(reading: Patterns.Reading, identity: Option<Credentials>, allowed: AllowList, req: QueryRequest): (verdict: Verdict)
    ensures identity.None? ==> verdict == Rejected(Unauthorized)
    ensures identity.Some? ==> verdict != Rejected(Unauthorized)
    ensures verdict.Accepted? ==>
      && identity.Some? && req.server.Some? && req.db.Some? && req.applicationName.Some?
      && verdict.values == Validated(req.server.value, req.db.value, identity.value.name, identity.value.password,
                                  req.localeIdentifier, req.applicationName.value, req.timeout)
  {
    if identity.None? then Rejected(Unauthorized)
    else if req.server.None? then Rejected(NullArgument(Server))
    else if !Allows(allowed, req.server.value) then Rejected(BadRequest(Server))
    else if req.db.None? then Rejected(NullArgument(Db))
    else if !Patterns.Accepts(reading, Patterns.DbName, req.db.value) then Rejected(BadRequest(Db))
    else if req.applicationName.None? then Rejected(NullArgument(ApplicationName))
    else if !Patterns.Accepts(reading, Patterns.AppName, req.applicationName.value) then Rejected(BadRequest(ApplicationName))
    else if !Patterns.Accepts(reading, Patterns.UserName, identity.value.name) then Rejected(BadRequest(UserName))
    else if !Patterns.Accepts(reading, Patterns.Password, identity.value.password) then Rejected(BadRequest(Password))
    else Accepted(Validated(req.server.value, req.db.value, identity.value.name, identity.value.password,
                            req.localeIdentifier, req.applicationName.value, req.timeout))
  }

  // A reference statement of the chain, field by field.

  /** The place of each field in the chain. */
  function Position(f: Field): nat
  {
    match f
    case Server => 0
    case Db => 1
    case ApplicationName => 2
    case UserName => 3
    case Password => 4
  }

  /** The value a field's check looks at; `None` is a null reference. */
  function FieldValue(c: Credentials, req: QueryRequest, f: Field): Option<string>
  {
    match f
    case Server => req.server
    case Db => req.db
    case ApplicationName => req.applicationName
    case UserName => Some(c.name)
    case Password => Some(c.password)
  }

  /** The test a field's value must pass. */
  predicate FieldAccepts(reading: Patterns.Reading, allowed: AllowList, f: Field, s: string)
  {
    match f
    case Server => Allows(allowed, s)
    case Db => Patterns.Accepts(reading, Patterns.DbName, s)
    case ApplicationName => Patterns.Accepts(reading, Patterns.AppName, s)
    case UserName => Patterns.Accepts(reading, Patterns.UserName, s)
    case Password => Patterns.Accepts(reading, Patterns.Password, s)
  }

  datatype FieldCheck = Pass | Fail | Throws

  function CheckField(reading: Patterns.Reading, allowed: AllowList, c: Credentials, req: QueryRequest, f: Field): FieldCheck
  {
    match FieldValue(c, req, f)
    case None => Throws
    case Some(s) => if FieldAccepts(reading, allowed, f, s) then Pass else Fail
  }

  /** `f` is the first field, in chain order, whose check does not pass. */
  predicate FirstNotPassing(reading: Patterns.Reading, allowed: AllowList, c: Credentials, req: QueryRequest, f: Field)
  {
    && CheckField(reading, allowed, c, req, f) != Pass
    && forall g :: Position(g) < Position(f) ==> CheckField(reading, allowed, c, req, g) == Pass
  }

  /**
   * With an identity present, the verdict names the first field whose check
   * does not pass: a 400 for a value that fails, a thrown exception for a
   * missing one, and acceptance only when there is no such field.
   */
  lemma {:induction false} ValidateFindsFirstFailure(reading: Patterns.Reading, allowed: AllowList, c: Credentials,
                                                     req: QueryRequest, f: Field)
    ensures Validate(reading, Some(c), allowed, req).Accepted? <==> forall g :: CheckField(reading, allowed, c, req, g) == Pass
    ensures Validate(reading, Some(c), allowed, req) == Rejected(BadRequest(f)) <==>
      FirstNotPassing(reading, allowed, c, req, f) && CheckField(reading, allowed, c, req, f) == Fail
    ensures Validate(reading, Some(c), allowed, req) == Rejected(NullArgument(f)) <==>
      FirstNotPassing(reading, allowed, c, req, f) && CheckField(reading, allowed, c, req, f) == Throws
  {
    var check := g => CheckField(reading, allowed, c, req, g);
    if check(Server) != Pass {
    } else if check(Db) != Pass {
      assert forall g :: Position(g) < 1 ==> g == Server;
    } else if check(ApplicationName) != Pass {
      assert forall g :: Position(g) < 2 ==> g == Server || g == Db;
    } else if check(UserName) != Pass {
      assert forall g :: Position(g) < 3 ==> g == Server || g == Db || g == ApplicationName;
    } else if check(Password) != Pass {
      assert forall g :: Position(g) < 4 ==> g != Password;
    } else {
      assert forall g :: check(g) == Pass by {
        forall g ensures check(g) == Pass {
          if g == Password {}
        }
      }
    }
  }

  /**
   * Once a field's check has rejected the request, the fields after it are
   * not consulted: any request that agrees on that field and the ones before
   * it gets the same verdict.
   */
  lemma {:induction false} LaterFieldsNotConsulted(reading: Patterns.Reading, allowed: AllowList, c: Credentials,
                                                   req: QueryRequest, c': Credentials, req': QueryRequest, f: Field)
    requires Validate(reading, Some(c), allowed, req).Rejected?
    requires Validate(reading, Some(c), allowed, req).why.field == f
    requires forall g :: Position(g) <= Position(f) ==> FieldValue(c, req, g) == FieldValue(c', req', g)
    ensures Validate(reading, Some(c'), allowed, req') == Validate(reading, Some(c), allowed, req)
  {
    ValidateFindsFirstFailure(reading, allowed, c, req, f);
    ValidateFindsFirstFailure(reading, allowed, c', req', f);
    forall g | Position(g) <= Position(f)
      ensures CheckField(reading, allowed, c, req, g) == CheckField(reading, allowed, c', req', g)
    {
      assert FieldValue(c, req, g) == FieldValue(c', req', g);
    }
  }

  /** The server check ignores case: `prod1` and `PROD1` get the same verdict. */
  lemma {:induction false} ServerCheckIgnoresCase(reading: Patterns.Reading, identity: Option<Credentials>,
                                                  allowed: AllowList, req: QueryRequest, server': string)
    requires req.server.Some? && EqualIgnoringCase(req.server.value, server')
    ensures var v := Validate(reading, identity, allowed, req);
            var v' := Validate(reading, identity, allowed, req.(server := Some(server')));
            && v.Accepted? == v'.Accepted?
            && (v.Rejected? ==> v == v')
  {
    AllowsIgnoresCase(allowed, req.server.value, server');
  }

  /**
   * Nothing accepted can leave its quoted slot of the connection string,
   * under either reading of the patterns: the four pattern-checked values
   * hold no quote, semicolon or double quote, and the server holds none of
   * them as long as no allow-list entry does. The pattern-checked values hold
   * no white space either, except that as written one final line feed can
   * remain.
   */
  lemma {:induction false} AcceptedValuesAreSlotSafe(reading: Patterns.Reading, identity: Option<Credentials>,
                                                     allowed: AllowList, req: QueryRequest)
    requires Validate(reading, identity, allowed, req).Accepted?
    requires forall e :: e in allowed ==> Patterns.SlotSafe(e)
    ensures var v := Validate(reading, identity, allowed, req).values;
            && Patterns.SlotSafe(v.server) && Patterns.SlotSafe(v.db) && Patterns.SlotSafe(v.user)
            && Patterns.SlotSafe(v.password) && Patterns.SlotSafe(v.applicationName)
    ensures var v := Validate(reading, identity, allowed, req).values;
            && WhiteSpaceFree(reading, v.db) && WhiteSpaceFree(reading, v.user)
            && WhiteSpaceFree(reading, v.password) && WhiteSpaceFree(reading, v.applicationName)
    ensures var v := Validate(reading, identity, allowed, req).values;
            reading == Patterns.Intended ==>
              && HasNoWhiteSpace(v.db) && HasNoWhiteSpace(v.user)
              && HasNoWhiteSpace(v.password) && HasNoWhiteSpace(v.applicationName)
  {
    var v := Validate(reading, identity, allowed, req).values;
    PatternCheckedIsSafe(reading, Patterns.DbName, v.db);
    PatternCheckedIsSafe(reading, Patterns.AppName, v.applicationName);
    PatternCheckedIsSafe(reading, Patterns.UserName, v.user);
    PatternCheckedIsSafe(reading, Patterns.Password, v.password);
    AllowedServerIsSlotSafe(allowed, v.server);
  }

  predicate HasNoWhiteSpace(s: string)
  {
    forall i :: 0 <= i < |s| ==> !IsWhiteSpace(s[i])
  }

  /** Non-empty and free of white space, except that as written a final line feed may remain. */
  predicate WhiteSpaceFree(reading: Patterns.Reading, s: string)
  {
    && s != []
    && (forall i :: 0 <= i < |s| - 1 ==> !IsWhiteSpace(s[i]))
    && (IsWhiteSpace(s[|s| - 1]) ==> reading == Patterns.AsWritten && s[|s| - 1] == '\n')
  }

  lemma PatternCheckedIsSafe(reading: Patterns.Reading, cls: Patterns.CharClass, s: string)
    requires Patterns.Accepts(reading, cls, s)
    ensures Patterns.SlotSafe(s) && WhiteSpaceFree(reading, s)
    ensures reading == Patterns.Intended ==> HasNoWhiteSpace(s)
  {
    Patterns.AcceptedShape(reading, cls, s);
    if reading == Patterns.Intended {
      Patterns.MatchedHasNoWhiteSpace(cls, s);
    }
  }

  /** An allowed server is as safe as the allow-list entry it matched. */
  lemma AllowedServerIsSlotSafe(allowed: AllowList, server: string)
    requires Allows(allowed, server)
    requires forall e :: e in allowed ==> Patterns.SlotSafe(e)
    ensures Patterns.SlotSafe(server)
  {
    AllowedServerSharesNonLetters(allowed, server, '\'');
    AllowedServerSharesNonLetters(allowed, server, ';');
    AllowedServerSharesNonLetters(allowed, server, '"');
    assert Patterns.SlotSafe(ToUpper(server));
  }
}
